=== FILE: README.md ===
# Recipe Finder: session state in Dafny

A Dafny model of the state-coordination layer of the Recipe Finder Android
app (Kotlin, Jetpack Compose). The model covers four parts:

- **Recipe view-model** (`RecipeViewModel`). Paged catalog search, the
  accumulated result list and the query state of the last page. It also
  holds the UI flags, the in-memory bookmark list with its two delete
  operations, and the search history with its comma-joined preference
  string (`History`).
- **Recipe list screen** (`RecipeList`). The `loadMore` predicate and the
  paging effect keyed on it. Also `searchRecipes`, the search row's two
  submit actions, the query-state observer, the choice between the result
  grid and the bookmark list, and the swipe that deletes a bookmark. A
  `Session` strings these together with the searches still in flight, so
  invariants can be stated over any sequence of events, including
  completions that arrive out of order.
- **Filter chips** (`ChipRow`). The "All" / "Bookmarks" two-flag state
  machine.
- **Grocery list screen** (`GroceryList`). Ingredients with one checkbox
  flag each, a case-sensitive name filter, the Need/Have split, and what
  each rendered row shows and which flag its checkbox writes.

Every handler is a pure function from one immutable state value to the
next. Network replies, saved preferences and grid measurements come in as
parameters. `Seqs` and `Text` give the Kotlin library operations the app
relies on:

- `filter` / `filterIndexed`
- `MutableList.remove`
- `trim`
- `contains`
- `split`
- `joinToString`

Each is stated against an index-level description.

Some behaviours of the code are worth stating up front:

- A new search neither resets the offset to 0 nor clears the accumulated
  results. `searchRecipes` (RecipeList.kt:396-403) fetches at the current
  offset, and the page is appended to the old results
  (`RecipeList.NewSearchKeepsOffsetAndResults`).
- The grocery name filter (GroceryList.kt:277-280) uses a case-sensitive
  `contains`: "salt" matches none of `[Salt, Pepper, Sea Salt]`
  (`GroceryList.NameFilterIsCaseSensitive`).
- A completion is not matched against the current query. Whichever page
  arrives is appended, and the query state takes that request's values
  (`RecipeList.OverlappingSearchesRace`).
- Right after a failed search the progress indicator is still on. The
  query-state collector clears `searching` only when the query state takes
  a new value, and a failure does not change it
  (`RecipeList.FailedSearchKeepsSpinner`). A later event that moves the
  query state, such as a paging run, clears it.
- Paging does not stop when every result is loaded. A window ending
  within 6 of the total but short of it asks for the page after the last
  one, which lies past the total
  (`RecipeList.LoadedCatalogStillPagedNearEnd`).
- The result grid is composed only while "All" is selected
  (RecipeList.kt:115-119), and its paging effect runs as soon as it is
  composed, before any scrolling. At start that first run has no query and
  fetches nothing, so a search made before scrolling is fetched once
  (`RecipeList.SearchBeforeScrollFetchedOnce`). Hiding the grid discards
  the effect's remembered state, so coming back to "All" at once searches
  the query at offset 0 again and appends that page after the old results
  (`RecipeList.ReturningToAllRefetchesFirstPage`).
- The history the app saves can come back with repeated terms: after
  searches for "a" and "a,a" the saved string is "a,a,a", which restores
  as three copies of "a" (`History.SavedHistoryCanRepeat`). Paging
  soundness therefore does not rest on a duplicate-free history.

The grocery view-model's source is not part of this model. Its setters
(`setSearchIngredients`, `updateCheckList`, `setAllShowing`,
`setSearching`) are modelled as plain replacements of one field each.
`setIngredients` is assumed to replace the list and reset every checkbox to
unchecked. Nothing on the grocery screen sets
`searching` to true, so filtered mode is entered only if the view-model
does so. The model keeps `searching` as state and states every grocery
property for either value.

## Model

| member | source | states |
|---|---|---|
| RecipeViewModel.Create | app/src/main/java/com/kodeco/recipefinder/viewmodels/RecipeViewModel.kt:25-76 | a fresh view-model has no results or bookmarks, the default query state (offset 0, page size 20, no total) and chips ("All" on, "Bookmarks" off), not searching, and the history restored from the saved string |
| RecipeViewModel.CreateRestoresSavedHistory | app/src/main/java/com/kodeco/recipefinder/viewmodels/RecipeViewModel.kt:66-76 | a history saved from a delimiter-free list comes back unchanged in the next view-model |
| RecipeViewModel.FetchCompleted | app/src/main/java/com/kodeco/recipefinder/viewmodels/RecipeViewModel.kt:78-94 | a successful page is appended after the old results (old prefix kept, lengths add) and the query state is stamped from the request and the reply's total; a failure empties the results and keeps the query state; nothing else changes |
| RecipeViewModel.SuccessesAccumulate | app/src/main/java/com/kodeco/recipefinder/viewmodels/RecipeViewModel.kt:86 | after any run of successful completions the results are the old results followed by every page in arrival order, and their count is the sum of the page sizes |
| RecipeViewModel.FailureDiscardsEarlierPages | app/src/main/java/com/kodeco/recipefinder/viewmodels/RecipeViewModel.kt:89-92 | after a failure only pages that arrived later remain, whatever came before |
| RecipeViewModel.AddPreviousSearch | app/src/main/java/com/kodeco/recipefinder/viewmodels/RecipeViewModel.kt:154-162 | a new term is appended to the history and the whole history is saved comma-joined; a known term changes nothing, not even the saved string; the other state is untouched |
| RecipeViewModel.AddedHistoryIsSaved | app/src/main/java/com/kodeco/recipefinder/viewmodels/RecipeViewModel.kt:154-162 | after adding a term, restoring the saved string gives the current history back, for delimiter-free histories |
| RecipeViewModel.AddPreviousSearchTwice | app/src/main/java/com/kodeco/recipefinder/viewmodels/RecipeViewModel.kt:154-162 | recording a term twice is recording it once |
| RecipeViewModel.UpdateQueryState | app/src/main/java/com/kodeco/recipefinder/viewmodels/RecipeViewModel.kt:164-166 | the query state becomes the given one and every other container is unchanged |
| RecipeViewModel.SetSearching | app/src/main/java/com/kodeco/recipefinder/viewmodels/RecipeViewModel.kt:168-170 | only `searching` changes |
| RecipeViewModel.SetAllChecked | app/src/main/java/com/kodeco/recipefinder/viewmodels/RecipeViewModel.kt:172-174 | only `allChecked` changes |
| RecipeViewModel.SetBookmarksChecked | app/src/main/java/com/kodeco/recipefinder/viewmodels/RecipeViewModel.kt:176-178 | only `bookmarksChecked` changes |
| RecipeViewModel.DeleteBookmarkById | app/src/main/java/com/kodeco/recipefinder/viewmodels/RecipeViewModel.kt:190-199 | every remaining bookmark has another id and was a bookmark before, and every bookmark with another id remains |
| RecipeViewModel.DeleteBookmarkByIdKeepsOrder | app/src/main/java/com/kodeco/recipefinder/viewmodels/RecipeViewModel.kt:193-197 | the remaining bookmarks are exactly those at the positions whose id differs, in their original order |
| RecipeViewModel.DeleteBookmarkByIdTwice | app/src/main/java/com/kodeco/recipefinder/viewmodels/RecipeViewModel.kt:194-196 | deleting the same id twice is deleting it once |
| RecipeViewModel.DeleteBookmark | app/src/main/java/com/kodeco/recipefinder/viewmodels/RecipeViewModel.kt:180-188 | the first bookmark structurally equal to the recipe (same id, title and image) is cut out and the rest keep their order; an absent recipe changes nothing |
| RecipeViewModel.DeleteBookmarkRemovesOneCopy | app/src/main/java/com/kodeco/recipefinder/viewmodels/RecipeViewModel.kt:184-186 | deleting by value takes exactly one copy of the recipe out of the bookmark multiset |
| RecipeViewModel.DeleteByIdAndByValueDiffer | app/src/main/java/com/kodeco/recipefinder/viewmodels/RecipeViewModel.kt:180-199 | two bookmarks with the same id but different titles both go when deleting by id, while deleting by value removes only the equal one |
| History.Add | app/src/main/java/com/kodeco/recipefinder/viewmodels/RecipeViewModel.kt:154-159 | the term ends up in the history; old entries keep their order and at most the term is appended; the history is unchanged exactly when the term was already present; no duplicates are introduced |
| History.Restore | app/src/main/java/com/kodeco/recipefinder/viewmodels/RecipeViewModel.kt:66-76 | an absent or empty saved string gives no history; any other string gives at least one term and no term contains a comma |
| History.Persist | app/src/main/java/com/kodeco/recipefinder/viewmodels/RecipeViewModel.kt:96-101 | a non-empty history of comma-free terms is saved as a string that splits on commas back into that history |
| History.RestorePersist | app/src/main/java/com/kodeco/recipefinder/viewmodels/RecipeViewModel.kt:66-101 | saving and then restoring a history whose terms have no comma (and which is not the single empty term) gives it back |
| History.PersistRestore | app/src/main/java/com/kodeco/recipefinder/viewmodels/RecipeViewModel.kt:66-101 | restoring any saved string and saving again writes the same string |
| History.DelimiterInTermSplitsIt | app/src/main/java/com/kodeco/recipefinder/viewmodels/RecipeViewModel.kt:70 | a term containing a comma comes back as two terms after a save and restore |
| History.EmptyTermIsLost | app/src/main/java/com/kodeco/recipefinder/viewmodels/RecipeViewModel.kt:69 | a history made of the single empty term saves as "" and restores as no history |
| History.SavedHistoryCanRepeat | app/src/main/java/com/kodeco/recipefinder/viewmodels/RecipeViewModel.kt:66-101 | for a comma-free term t, searching t and then "t,t" gives a duplicate-free history that saves as "t,t,t" and restores as three copies of t, so a restored history can hold duplicates |
| ChipRow.ClickAll | app/src/main/java/com/kodeco/recipefinder/ui/recipes/ChipRow.kt:42-48 | clicking "All" flips `allChecked`; turning it on clears `bookmarksChecked`, turning it off leaves that flag alone |
| ChipRow.ClickBookmarks | app/src/main/java/com/kodeco/recipefinder/ui/recipes/ChipRow.kt:54-60 | clicking "Bookmarks" flips `bookmarksChecked`; turning it on clears `allChecked`, turning it off leaves that flag alone |
| ChipRow.Click | app/src/main/java/com/kodeco/recipefinder/ui/recipes/ChipRow.kt:42-60 | a click on either chip, from any flags, leaves at most one chip selected and touches neither `searching` nor the history |
| ChipRow.ClicksKeepExclusive | app/src/main/java/com/kodeco/recipefinder/ui/recipes/ChipRow.kt:42-60 | from a state with at most one chip selected, no click sequence selects both |
| ChipRow.NeverBothFromDefaults | app/src/main/java/com/kodeco/recipefinder/ui/recipes/ChipRow.kt:42-60 | starting from the defaults, no click sequence selects both chips |
| ChipRow.ExclusiveSelectionsReachable | app/src/main/java/com/kodeco/recipefinder/ui/recipes/ChipRow.kt:42-60 | each of the three exclusive selections, including neither chip, is reached from the defaults by some click sequence |
| ChipRow.ClickAllTwice | app/src/main/java/com/kodeco/recipefinder/ui/recipes/ChipRow.kt:42-48 | clicking "All" twice restores the state when "Bookmarks" was off |
| ChipRow.ClickBookmarksTwice | app/src/main/java/com/kodeco/recipefinder/ui/recipes/ChipRow.kt:54-60 | clicking "Bookmarks" twice restores the state when "All" was off |
| ChipRow.ClickAllTwiceLosesBookmarks | app/src/main/java/com/kodeco/recipefinder/ui/recipes/ChipRow.kt:42-48 | with "Bookmarks" on, two clicks on "All" end with neither chip selected |
| RecipeList.LoadMore | app/src/main/java/com/kodeco/recipefinder/ui/RecipeList.kt:193-201 | the derived `loadMore`: the last visible position plus 6 passes the loaded count and the last visible position is below the reported total |
| RecipeList.LoadMoreBounds | app/src/main/java/com/kodeco/recipefinder/ui/RecipeList.kt:193-201 | more is wanted only when the last visible position is within 6 of the loaded count and below a positive total; never when the total is 0 |
| RecipeList.LoadMoreAfterTwoPages | app/src/main/java/com/kodeco/recipefinder/ui/RecipeList.kt:195-199 | with 40 of 45 loaded, more is wanted exactly while the last visible position is between 35 and 44 |
| RecipeList.SearchRecipes | app/src/main/java/com/kodeco/recipefinder/ui/RecipeList.kt:396-403 | an empty string only clears `searching`: no history entry and no fetch; any other string is added to the history exactly as `addPreviousSearch` adds it, with the saved string rewritten only when the term is new, and is fetched at the current offset with page size 20; results, query state, bookmarks and chips stay as they were |
| RecipeList.KeyboardSearch | app/src/main/java/com/kodeco/recipefinder/ui/RecipeList.kt:301-306 | the trimmed text is searched; whitespace-only text ends not searching, with no history entry and no fetch; other text ends searching, with the trimmed text added to the history (and saved when new) and fetched; results, query state, bookmarks and chips stay as they were |
| RecipeList.IconSearch | app/src/main/java/com/kodeco/recipefinder/ui/RecipeList.kt:279-287 | empty raw text does nothing at all; otherwise the same as the keyboard action |
| RecipeList.SubmitEmptyText | app/src/main/java/com/kodeco/recipefinder/ui/RecipeList.kt:279-306 | on empty text the keyboard action clears `searching` while the icon leaves it set |
| RecipeList.ObserveQueryState | app/src/main/java/com/kodeco/recipefinder/ui/RecipeList.kt:95-102 | a query state with a positive page size clears `searching`; otherwise nothing changes; nothing but `searching` ever changes |
| RecipeList.ObserverClearsSearching | app/src/main/java/com/kodeco/recipefinder/ui/RecipeList.kt:97-100 | in a sound session the collector always clears `searching`, because the page size stays 20 |
| RecipeList.ScreenLayout | app/src/main/java/com/kodeco/recipefinder/ui/RecipeList.kt:109-120 | the search row and the result grid are shown exactly when "All" is selected, the bookmark list exactly when it is not |
| RecipeList.LayoutFollowsChips | app/src/main/java/com/kodeco/recipefinder/ui/RecipeList.kt:109-120 | after any clicks from the defaults, "Bookmarks" selected means the bookmark list shows; with neither chip selected the bookmark list shows too |
| RecipeList.PagingEffect | app/src/main/java/com/kodeco/recipefinder/ui/RecipeList.kt:208-215 | the first run sets the offset to 0 and every later run advances it by 20; the current query is then searched at that offset, or `searching` is cleared when the query is empty |
| RecipeList.WindowAtTotalStopsPaging | app/src/main/java/com/kodeco/recipefinder/ui/RecipeList.kt:193-215 | after `loadMore` was last false, a window reaching the reported total issues nothing |
| RecipeList.NoResultsNoPaging | app/src/main/java/com/kodeco/recipefinder/ui/RecipeList.kt:193-215 | after `loadMore` was last false, a catalog with no results is never paged |
| RecipeList.NearEndFetchesNextPage | app/src/main/java/com/kodeco/recipefinder/ui/RecipeList.kt:193-215 | a window near the end of the loaded results and short of the total fetches the page after the last one |
| RecipeList.LoadedCatalogStillPagedNearEnd | app/src/main/java/com/kodeco/recipefinder/ui/RecipeList.kt:193-215 | with every result loaded, a window ending within 6 of the total but short of it still fetches a page beyond the total |
| RecipeList.ReturningToAllRefetchesFirstPage | app/src/main/java/com/kodeco/recipefinder/ui/RecipeList.kt:115-119 | turning "All" off and on discards the paging state with the hidden grid; the click that shows the grid again searches the query at offset 0 at once, keeps the old results, and the page that arrives is appended after them |
| RecipeList.Recompose | app/src/main/java/com/kodeco/recipefinder/ui/RecipeList.kt:202-215 | the effect runs when the observed `loadMore` value differs from the last one it ran for, in either direction, and not otherwise; a run sets the offset to 0 first and then one page further each time, and fetches the current query at that offset when the query is non-empty |
| RecipeList.PagingOffsets | app/src/main/java/com/kodeco/recipefinder/ui/RecipeList.kt:202-215 | from a fresh screen the offset ends at 20 times the number of changes of `loadMore`, and with a non-empty query the searches issued are for offsets 0, 20, 40, ... in order, one more than the changes |
| RecipeList.ComposeGrid | app/src/main/java/com/kodeco/recipefinder/ui/RecipeList.kt:190-215 | a newly composed grid observes `loadMore` for an unscrolled, unmeasured window and runs the effect at once as a first run: offset 0, the current query fetched there (or `searching` cleared with no query), results, bookmarks and chips unchanged |
| RecipeList.Start | app/src/main/java/com/kodeco/recipefinder/ui/RecipeList.kt:85-121 | a fresh screen shows "All" with no results, bookmarks or searches in flight, the default query state, not searching, the history restored from the saved string, and the grid's first effect run already done for a false `loadMore` |
| RecipeList.ChipHidesGrid | app/src/main/java/com/kodeco/recipefinder/ui/RecipeList.kt:115-119 | a click that leaves "All" unselected changes only the chips and forgets the paging state; nothing is fetched |
| RecipeList.ChipShowsGrid | app/src/main/java/com/kodeco/recipefinder/ui/RecipeList.kt:202-215 | a click that selects "All" again runs the paging effect at once as a first run: offset 0 and, with a query, a fetch for it at offset 0; results kept |
| RecipeList.SteadyWindowIssuesNothing | app/src/main/java/com/kodeco/recipefinder/ui/RecipeList.kt:208 | an observation whose `loadMore` equals the value the effect last ran for changes nothing |
| RecipeList.NewestSearchArrives | app/src/main/java/com/kodeco/recipefinder/viewmodels/RecipeViewModel.kt:83-88 | the arrival of the newest search in flight appends its page, stamps the query state from that request and the reply's total, and leaves paging state and chips alone |
| RecipeList.SearchBeforeScrollFetchedOnce | app/src/main/java/com/kodeco/recipefinder/ui/RecipeList.kt:202-215 | from a fresh screen, a search made before any scrolling goes out once at offset 0; after its page arrives, a window that does not call for more fetches nothing, so that page is not fetched a second time |
| RecipeList.SearchFromIdleGridFetchedOnce | app/src/main/java/com/kodeco/recipefinder/ui/RecipeList.kt:202-215 | the same from any idle grid whose effect last ran for a false `loadMore`, with nothing loaded or in flight |
| RecipeList.SwipeDeletesOneBookmark | app/src/main/java/com/kodeco/recipefinder/ui/RecipeList.kt:148-156 | on the bookmark list, swiping row i takes exactly one copy of bookmark i out (one fewer bookmark) and changes nothing else |
| RecipeList.Apply | app/src/main/java/com/kodeco/recipefinder/ui/RecipeList.kt:112-119 | only a swipe on a shown bookmark changes the bookmarks, taking exactly one copy of that recipe out and leaving results, query state, chips and searches in flight alone; every other event leaves the bookmarks as they were; each event issues at most one search; search-row and grid events are ignored while "All" is off, swipes while it is on |
| RecipeList.Handle | app/src/main/java/com/kodeco/recipefinder/ui/RecipeList.kt:95-101 | an event followed by the query-state collector, which runs exactly when the event changed the query state; a swipe takes one copy of the swiped bookmark out, every other event leaves the bookmarks alone; at most one search issued |
| RecipeList.Replay | app/src/main/java/com/kodeco/recipefinder/ui/RecipeList.kt:95-156 | over any event sequence the bookmarks only shrink, as a sub-multiset of the start's, and stay equal when no event is a swipe; at most one search per event is issued |
| RecipeList.NewQueryStateClearsSearching | app/src/main/java/com/kodeco/recipefinder/ui/RecipeList.kt:97-100 | in a sound session a completion that changes the query state clears `searching` |
| RecipeList.FailedCompletionKeepsSearching | app/src/main/java/com/kodeco/recipefinder/viewmodels/RecipeViewModel.kt:89-92 | a failed completion leaves `searching` as it was, because the query state does not change; a failure of an in-flight search empties the results and takes that search out of flight |
| RecipeList.FailedSearchKeepsSpinner | app/src/main/java/com/kodeco/recipefinder/ui/RecipeList.kt:216-217 | with "All" shown, right after a keyboard search for non-blank text whose fetch fails, the results are empty, the search is no longer in flight and `searching` is still set, so the progress indicator is still on at that point |
| RecipeList.BookmarksViewIgnoresSearchRow | app/src/main/java/com/kodeco/recipefinder/ui/RecipeList.kt:112-119 | while "All" is off, search-row actions and grid observations change nothing |
| RecipeList.HandleSound | app/src/main/java/com/kodeco/recipefinder/ui/RecipeList.kt:85-121 | every event keeps offsets (current and in flight) non-negative multiples of 20, page sizes 20 and at most one chip selected |
| RecipeList.ReplaySound | app/src/main/java/com/kodeco/recipefinder/ui/RecipeList.kt:85-121 | the same invariant holds after any sequence of events, completions in any order included |
| RecipeList.StartSound | app/src/main/java/com/kodeco/recipefinder/ui/RecipeList.kt:85-121 | every fresh session satisfies that invariant, whatever string was saved |
| RecipeList.HandleKeepsHistoryDistinct | app/src/main/java/com/kodeco/recipefinder/viewmodels/RecipeViewModel.kt:154-162 | every event keeps a duplicate-free history duplicate-free, since all history writes go through `addPreviousSearch` |
| RecipeList.ReplayKeepsHistoryDistinct | app/src/main/java/com/kodeco/recipefinder/viewmodels/RecipeViewModel.kt:154-162 | the same over any event sequence |
| RecipeList.StartHistoryDistinct | app/src/main/java/com/kodeco/recipefinder/viewmodels/RecipeViewModel.kt:66-76 | a fresh session's history is duplicate-free exactly when the history restored from the saved string is |
| RecipeList.NewSearchKeepsOffsetAndResults | app/src/main/java/com/kodeco/recipefinder/ui/RecipeList.kt:396-403 | a new search goes out at the offset of the last page, leaves results, query state and paging state as they were, and leaves `searching` set |
| RecipeList.OverlappingSearchesRace | app/src/main/java/com/kodeco/recipefinder/viewmodels/RecipeViewModel.kt:83-88 | with two searches in flight arriving newest first, the results hold both pages in arrival order and the query state names the older search |
| GroceryList.SetIngredients | app/src/main/java/com/kodeco/recipefinder/ui/GroceryList.kt:80-85 | the loaded ingredients replace the list with one flag each, all unchecked; view mode, filtered mode and filtered list stay |
| GroceryList.RebuildNeedsEverything | app/src/main/java/com/kodeco/recipefinder/ui/GroceryList.kt:80-85 | right after a load every ingredient is in Need and none in Have |
| GroceryList.NameFilter | app/src/main/java/com/kodeco/recipefinder/ui/GroceryList.kt:277-280 | every kept ingredient comes from the list and its name contains the text; every ingredient whose name contains it is kept |
| GroceryList.NameFilterKeepsOrder | app/src/main/java/com/kodeco/recipefinder/ui/GroceryList.kt:278 | the filter result is the subsequence at the matching positions, in ascending order |
| GroceryList.EmptyTextSelectsAll | app/src/main/java/com/kodeco/recipefinder/ui/GroceryList.kt:278 | filtering with "" keeps the whole list |
| GroceryList.LowerSaltMatches | app/src/main/java/com/kodeco/recipefinder/ui/GroceryList.kt:278 | the case-sensitive "salt" test matches none of Salt, Pepper and Sea Salt |
| GroceryList.NameFilterIsCaseSensitive | app/src/main/java/com/kodeco/recipefinder/ui/GroceryList.kt:278 | "Salt" selects Salt and Sea Salt from [Salt, Pepper, Sea Salt], in order; "salt" selects nothing |
| GroceryList.SubmitFilter | app/src/main/java/com/kodeco/recipefinder/ui/GroceryList.kt:277-313 | empty raw text does nothing; other text sets the filtered list to the base list filtered by the trimmed text; base list, flags and modes are never touched |
| GroceryList.BlankFilterSelectsAll | app/src/main/java/com/kodeco/recipefinder/ui/GroceryList.kt:289-291 | whitespace-only text selects the whole base list |
| GroceryList.ClearFilter | app/src/main/java/com/kodeco/recipefinder/ui/GroceryList.kt:326-329 | the clear button leaves filtered mode and changes nothing else |
| GroceryList.SetAllShowing | app/src/main/java/com/kodeco/recipefinder/ui/GroceryList.kt:361-376 | the menu sets the view mode and changes nothing else |
| GroceryList.Current | app/src/main/java/com/kodeco/recipefinder/ui/GroceryList.kt:109-110 | the "All" view lists the filtered list while searching and the base list otherwise |
| GroceryList.NeedList | app/src/main/java/com/kodeco/recipefinder/ui/GroceryList.kt:128-130 | every unchecked ingredient appears in Need, which is no longer than the list |
| GroceryList.HaveList | app/src/main/java/com/kodeco/recipefinder/ui/GroceryList.kt:131-133 | every checked ingredient appears in Have, which is no longer than the list |
| GroceryList.NeedHavePartition | app/src/main/java/com/kodeco/recipefinder/ui/GroceryList.kt:128-133 | Need is the subsequence at the unchecked positions and Have the one at the checked positions; a position is in Need exactly when unchecked and in Have exactly when checked; the sizes add up to the list length |
| GroceryList.Render | app/src/main/java/com/kodeco/recipefinder/ui/GroceryList.kt:108-171 | "All" view row k shows the k-th current ingredient, struck through when flag k is set, with a checkbox on flag k; Need/Have view has one plain row per Need member and one struck row per Have member, row k of either showing base ingredient k, without checkboxes |
| GroceryList.NeedHaveIgnoresFilter | app/src/main/java/com/kodeco/recipefinder/ui/GroceryList.kt:106-133 | the Need/Have view is the same whatever the filter and filtered mode |
| GroceryList.NeedHaveShowPrefixes | app/src/main/java/com/kodeco/recipefinder/ui/GroceryList.kt:141-169 | the Need section shows the first |Need| base ingredients and the Have section the first |Have|, not the members of each |
| GroceryList.NeedRowShowsWrongIngredient | app/src/main/java/com/kodeco/recipefinder/ui/GroceryList.kt:141-169 | with Eggs checked and Milk not, Need holds Milk but its row shows Eggs, and the Have row shows Eggs too |
| GroceryList.UpdateCheckBox | app/src/main/java/com/kodeco/recipefinder/ui/GroceryList.kt:209-212 | the new flag list has the same length, the new value at the index, and the old value everywhere else |
| GroceryList.CheckRow | app/src/main/java/com/kodeco/recipefinder/ui/GroceryList.kt:209-212 | ticking a row writes the flag at the row's display position; lists and modes are unchanged |
| GroceryList.CheckRowMovesIngredient | app/src/main/java/com/kodeco/recipefinder/ui/GroceryList.kt:209-212 | unfiltered, ticking row i puts ingredient i in Have and unticking puts it in Need |
| GroceryList.FilteredRowUsesDisplayPosition | app/src/main/java/com/kodeco/recipefinder/ui/GroceryList.kt:109-121 | filtered, row k shows the ingredient at the k-th matching base position p, with p at least k, yet its checkbox is flag k |
| GroceryList.FilteredCheckHitsWrongIngredient | app/src/main/java/com/kodeco/recipefinder/ui/GroceryList.kt:189-212 | filtering [Salt, Pepper, Sea Salt] for "Salt" and ticking the Sea Salt row sets Pepper's flag and leaves Sea Salt's unset |
| GroceryList.Handle | app/src/main/java/com/kodeco/recipefinder/ui/GroceryList.kt:289-329 | only a reload replaces the base list and it realigns the flags; filter, clear and view events keep every flag; a checkbox event changes at most its own row's flag |
| GroceryList.ReplayKeepsAligned | app/src/main/java/com/kodeco/recipefinder/ui/GroceryList.kt:189-212 | every grocery event sequence keeps exactly one flag per ingredient |
| GroceryList.ReplayKeepsConsistent | app/src/main/java/com/kodeco/recipefinder/ui/GroceryList.kt:108-121 | without a reload, events keep the filtered list no longer than the flag list, so every row's flag read stays in range |
| GroceryList.ShrinkingReloadBreaksFilteredView | app/src/main/java/com/kodeco/recipefinder/ui/GroceryList.kt:80-85 | a reload that shrinks the list while filtered leaves a filtered list longer than the flag list, which the "All" view cannot draw |
| Text.Trim | app/src/main/java/com/kodeco/recipefinder/ui/RecipeList.kt:305 | the trimmed text is empty exactly when the text is all whitespace; otherwise it starts and ends with non-whitespace and is a contiguous stretch of the text with only whitespace around it |
| Text.Contains | app/src/main/java/com/kodeco/recipefinder/ui/GroceryList.kt:278 | Kotlin's case-sensitive `contains`, tried at every start position; characterised by `Text.ContainsIffOccurs` |
| Text.ContainsIffOccurs | app/src/main/java/com/kodeco/recipefinder/ui/GroceryList.kt:278 | `contains` holds exactly when the text occurs as a contiguous slice at some position |
| Text.Split | app/src/main/java/com/kodeco/recipefinder/viewmodels/RecipeViewModel.kt:70 | splitting gives at least one piece and no piece contains the delimiter |
| Text.Join | app/src/main/java/com/kodeco/recipefinder/viewmodels/RecipeViewModel.kt:98 | joining no pieces gives "", the first piece leads the result, and the result has at least one character per gap; where the delimiters sit is stated by `Text.JoinSnoc` |
| Text.JoinSnoc | app/src/main/java/com/kodeco/recipefinder/viewmodels/RecipeViewModel.kt:98 | each piece after the first follows the join of the pieces before it and exactly one delimiter, so every gap between two pieces holds one delimiter |
| Text.SplitJoin | app/src/main/java/com/kodeco/recipefinder/viewmodels/RecipeViewModel.kt:70 | splitting the join of a non-empty list of delimiter-free pieces gives the pieces back |
| Text.JoinSplit | app/src/main/java/com/kodeco/recipefinder/viewmodels/RecipeViewModel.kt:98 | joining the pieces of a split gives the text back |
| Seqs.Select | app/src/main/java/com/kodeco/recipefinder/ui/GroceryList.kt:128-133 | `filterIndexed` on a flag list: the selection is never longer than the list; characterised by `Seqs.SelectIsPick` and `Seqs.SelectMembers` |
| Seqs.SelectMembers | app/src/main/java/com/kodeco/recipefinder/ui/GroceryList.kt:128-133 | every element kept sits at a position with the wanted flag, and every element at such a position is kept |
| Seqs.SelectSnoc | app/src/main/java/com/kodeco/recipefinder/ui/GroceryList.kt:128-133 | one more element at the end joins the selection exactly when its flag matches |
| Seqs.SelectIsPick | app/src/main/java/com/kodeco/recipefinder/ui/GroceryList.kt:128-133 | the selection is exactly the subsequence at the positions with the wanted flag, in ascending order |
| Seqs.PositionsSplit | app/src/main/java/com/kodeco/recipefinder/ui/GroceryList.kt:128-133 | the positions with a set flag and those with a clear flag together number the list length |
| Seqs.Filter | app/src/main/java/com/kodeco/recipefinder/ui/GroceryList.kt:278 | every element the filter keeps came from the list and passes the test, and every passing element is kept |
| Seqs.SelectAll | app/src/main/java/com/kodeco/recipefinder/ui/GroceryList.kt:128-133 | a selection whose every flag matches keeps the whole list |
| Seqs.FilterKeepsAll | app/src/main/java/com/kodeco/recipefinder/viewmodels/RecipeViewModel.kt:194-196 | a filter leaves the list unchanged exactly when every element passes |
| Seqs.FilterIdempotent | app/src/main/java/com/kodeco/recipefinder/viewmodels/RecipeViewModel.kt:194-196 | filtering twice with the same test is filtering once |
| Seqs.RemoveFirst | app/src/main/java/com/kodeco/recipefinder/viewmodels/RecipeViewModel.kt:185 | removing shortens the list by one exactly when the element is present |
| Seqs.RemoveFirstAt | app/src/main/java/com/kodeco/recipefinder/viewmodels/RecipeViewModel.kt:185 | removing a present element cuts out its first occurrence and keeps the rest in order |
| Seqs.RemoveFirstAbsent | app/src/main/java/com/kodeco/recipefinder/viewmodels/RecipeViewModel.kt:185 | removing an absent element changes nothing |
| Seqs.RemoveFirstCount | app/src/main/java/com/kodeco/recipefinder/viewmodels/RecipeViewModel.kt:185 | removing takes exactly one copy of the element out of the multiset |

## Left out

- Compose rendering is not modelled: layout, colours, images, previews, the progress indicator and the swipe animation. A completed swipe on a bookmark row is one event. The grocery rows keep only what they show, whether they are struck through, and which flag their checkbox uses.
- Grid measurement is not modelled. `loadMore` takes the first visible position and the number of visible items as plain numbers.
- Retrofit networking is not modelled. A completed search is one atomic step whose page and total come in as parameters, and every exception is one failure outcome.
- The recipe-detail fetch (`queryRecipe`) and `getBookmark` are left out. They only fill a detail slot that no modelled property reads.
- Coroutines and dispatchers are not modelled. Each step (a completion, a history save, an observer run) is atomic. Steps can interleave only through the in-flight searches of a `Session`, which may complete in any order.
- Room and the `Repository` are not modelled (`bookmarkRecipe`, `getBookmarks`, `getIngredients`, `deleteRecipe*`), because their source is not part of this model. The deletes model only the in-memory bookmark list. Loaded ingredients arrive as an event parameter.
- RecipeList.Replay: the bookmark list's reload from the repository each time it is shown (`getBookmarks`, RecipeList.kt:128-139) is not an event, because the repository is not modelled. So the model promises only that its own events never add a bookmark.
- `Prefs` storage I/O is not modelled. Only the saved string is kept, as `saved`.
- `MainActivity.kt` is left out. It holds navigation, dependency injection and database construction.
- The remote catalog's recipe-detail records (`ExtendedIngredient` and the rest) are left out, because only the recipe-detail fetch uses them and it is not modelled. Timber logging is left out too.
- RecipeViewModel.FetchCompleted: Kotlin's 32-bit `Int` is not modelled, so offsets, counts and totals are unbounded integers. Wrap-around would need more than 100 million pages.
- RecipeList.Recompose: the `LaunchedEffect` cancelling a still-running previous run is not modelled. Each run completes before the next recomposition.
- The duplicate chip row inside RecipeList.kt (lines 353-389) is not modelled separately. Its handlers are the same as those of ChipRow.kt, which `ChipRow` models.
- The grocery view-model is not part of this model. Its setters are assumed to replace one field each. `setIngredients` is assumed to reset every checkbox to unchecked.
- GroceryList.Handle: a checkbox event for a row the "All" view does not show is modelled as no change. In the app such a row cannot be clicked, and a row whose flag is missing would throw.
- The clear button's reset of the grocery search text is left out. That text is composable-local state, so only its `searching` effect is modelled.

=== FILE: chip_row.dfy ===
/** The "All" / "Bookmarks" filter chips above the recipe list: a two-flag
    state machine over `allChecked` and `bookmarksChecked`, whose click
    handlers keep the two flags from being set together. */
module ChipRow {
  import opened RecipeViewModel

  datatype Chip = All | Bookmarks

  /** Clicking "All" flips `allChecked`; switching it on also clears
      `bookmarksChecked`. */
  function ClickAll(ui: UIState): (r: UIState)
    ensures r.allChecked == !ui.allChecked
    ensures r.allChecked ==> !r.bookmarksChecked
    ensures !r.allChecked ==> r.bookmarksChecked == ui.bookmarksChecked
    ensures r.searching == ui.searching && r.previousSearches == ui.previousSearches
  {
    var allChecked := !ui.allChecked;
    var flipped := SetAllChecked(ui, allChecked);
    if allChecked then SetBookmarksChecked(flipped, false) else flipped
  }

  /** Clicking "Bookmarks" flips `bookmarksChecked`; switching it on also
      clears `allChecked`. */
  function ClickBookmarks(ui: UIState): (r: UIState)
    ensures r.bookmarksChecked == !ui.bookmarksChecked
    ensures r.bookmarksChecked ==> !r.allChecked
    ensures !r.bookmarksChecked ==> r.allChecked == ui.allChecked
    ensures r.searching == ui.searching && r.previousSearches == ui.previousSearches
  {
    var bookmarksChecked := !ui.bookmarksChecked;
    var flipped := SetBookmarksChecked(ui, bookmarksChecked);
    if bookmarksChecked then SetAllChecked(flipped, false) else flipped
  }

  /** A click on either chip leaves at most one chip selected, whatever the
      flags were before, and touches neither `searching` nor the history. */
  function Click(ui: UIState, chip: Chip): (r: UIState)
    ensures Exclusive(r)
    ensures r.searching == ui.searching && r.previousSearches == ui.previousSearches
  {
    match chip
    case All => ClickAll(ui)
    case Bookmarks => ClickBookmarks(ui)
  }

  /** The clicks applied in order. */
  function ClickAllOf(ui: UIState, chips: seq<Chip>): UIState {
    if |chips| == 0 then ui else Click(ClickAllOf(ui, chips[..|chips| - 1]), chips[|chips| - 1])
  }

  /** At most one chip is selected. */
  predicate Exclusive(ui: UIState) {
    !(ui.allChecked && ui.bookmarksChecked)
  }

  /** No click sequence leads from an exclusive state to both chips being
      selected. */
  lemma {:induction false} ClicksKeepExclusive(ui: UIState, chips: seq<Chip>)
    requires Exclusive(ui)
    ensures Exclusive(ClickAllOf(ui, chips))
  {
    if |chips| > 0 {
      ClicksKeepExclusive(ui, chips[..|chips| - 1]);
    }
  }

  /** From the defaults, both chips are never selected together. */
  lemma NeverBothFromDefaults(chips: seq<Chip>)
    ensures !(ClickAllOf(DefaultUIState, chips).allChecked && ClickAllOf(DefaultUIState, chips).bookmarksChecked)
  {
    ClicksKeepExclusive(DefaultUIState, chips);
  }

  /** A click sequence that reaches the chip selection `(all, bookmarks)`. */
  function Route(all: bool, bookmarks: bool): seq<Chip> {
    if all then [] else if bookmarks then [Bookmarks] else [All]
  }

  /** Every exclusive chip selection is reachable from the defaults,
      including the one where neither chip is selected. */
  lemma ExclusiveSelectionsReachable(all: bool, bookmarks: bool)
    requires !(all && bookmarks)
    ensures ClickAllOf(DefaultUIState, Route(all, bookmarks)).allChecked == all
    ensures ClickAllOf(DefaultUIState, Route(all, bookmarks)).bookmarksChecked == bookmarks
  {
    var route := Route(all, bookmarks);
    if |route| == 1 {
      assert route[..0] == [];
    }
  }

  /** Clicking "All" twice restores the state when "Bookmarks" was off. */
  lemma ClickAllTwice(ui: UIState)
    requires !ui.bookmarksChecked
    ensures ClickAll(ClickAll(ui)) == ui
  {
  }

  /** Clicking "Bookmarks" twice restores the state when "All" was off. */
  lemma ClickBookmarksTwice(ui: UIState)
    requires !ui.allChecked
    ensures ClickBookmarks(ClickBookmarks(ui)) == ui
  {
  }

  /** With "Bookmarks" on, clicking "All" twice does not come back: the first
      click cleared "Bookmarks" for good. */
  lemma ClickAllTwiceLosesBookmarks()
    ensures var ui := DefaultUIState.(allChecked := false, bookmarksChecked := true);
      var r := ClickAll(ClickAll(ui));
      !r.allChecked && !r.bookmarksChecked
  {
  }
}

=== FILE: grocery_list.dfy ===
/** The grocery-list screen: the ingredients of all bookmarked recipes with one
    checkbox flag per ingredient, a name filter, and a Need/Have view that
    splits the ingredients by their flags. The screen's state holder is the
    grocery view-model, whose setters are modelled as plain field
    replacements. */
module GroceryList {
  import opened Models
  import opened Seqs
  import opened Text

  /** The grocery view-model's state as the screen reads it. `checkBoxes[i]`
      is meant to belong to `ingredients[i]`. */
  datatype GroceryUIState = GroceryUIState(
    ingredients: seq<Ingredient>,
    checkBoxes: seq<bool>,
    allListShowing: bool,
    searching: bool,
    searchIngredients: seq<Ingredient>
  )

  /** One flag per ingredient. */
  predicate Aligned(g: GroceryUIState) {
    |g.checkBoxes| == |g.ingredients|
  }

  /** Aligned, and the filtered list is no longer than the base list (it was
      filtered from it). */
  predicate Consistent(g: GroceryUIState) {
    Aligned(g) && |g.searchIngredients| <= |g.ingredients|
  }

  /** Rebuilding the list from storage: new ingredients, every flag cleared. */
  function SetIngredients(g: GroceryUIState, ingredients: seq<Ingredient>): (r: GroceryUIState)
    ensures r.ingredients == ingredients && Aligned(r)
    ensures forall i :: 0 <= i < |r.checkBoxes| ==> !r.checkBoxes[i]
    ensures r.allListShowing == g.allListShowing && r.searching == g.searching
    ensures r.searchIngredients == g.searchIngredients
  {
    g.(ingredients := ingredients, checkBoxes := seq(|ingredients|, _ => false))
  }

  /** The search test for one ingredient: its name contains `text`. */
  function Matches(text: string): Ingredient -> bool {
    (x: Ingredient) => Contains(x.name, text)
  }

  /** `startSearch`: the ingredients whose name contains `text`,
      case-sensitively, in their original order. */
  function NameFilter(ingredients: seq<Ingredient>, text: string): (r: seq<Ingredient>)
    ensures |r| <= |ingredients|
    ensures forall k :: 0 <= k < |r| ==> r[k] in ingredients && Contains(r[k].name, text)
    ensures forall i :: 0 <= i < |ingredients| && Contains(ingredients[i].name, text) ==> ingredients[i] in r
  {
    Filter(ingredients, Matches(text))
  }

  /** The filter result is the subsequence at the matching positions, in
      ascending order. */
  lemma NameFilterKeepsOrder(ingredients: seq<Ingredient>, text: string)
    ensures var matches := Flags(ingredients, Matches(text));
      NameFilter(ingredients, text) == Pick(ingredients, Positions(matches, |ingredients|, true))
  {
    SelectIsPick(ingredients, Flags(ingredients, Matches(text)), true);
  }

  /** Every name contains the empty text, so filtering with it selects the
      whole list. */
  lemma EmptyTextSelectsAll(ingredients: seq<Ingredient>)
    ensures NameFilter(ingredients, "") == ingredients
  {
    forall i | 0 <= i < |ingredients|
      ensures Contains(ingredients[i].name, "")
    {
      ContainsEmpty(ingredients[i].name);
    }
    FilterKeepsAll(ingredients, Matches(""));
  }

  /** The selection from a three-element list, one flag at a time. */
  lemma SelectThree<T>(a: T, b: T, c: T, flags: seq<bool>, keep: bool)
    requires 3 <= |flags|
    ensures Select([a, b, c], flags, keep) ==
      (if flags[0] == keep then [a] else []) + (if flags[1] == keep then [b] else []) + (if flags[2] == keep then [c] else [])
  {
    var first := Select([a], flags, keep);
    assert first == (if flags[0] == keep then [a] else []) by {
      assert [] + [a] == [a];
      SelectSnoc([], a, flags, keep);
    }
    var second := Select([a, b], flags, keep);
    assert second == first + (if flags[1] == keep then [b] else []) by {
      assert [a] + [b] == [a, b];
      SelectSnoc([a], b, flags, keep);
    }
    assert Select([a, b, c], flags, keep) == second + (if flags[2] == keep then [c] else []) by {
      assert [a, b] + [c] == [a, b, c];
      SelectSnoc([a, b], c, flags, keep);
    }
  }

  /** Which of "Salt", "Pepper" and "Sea Salt" contain "Salt". */
  lemma UpperSaltMatches()
    ensures Contains("Salt", "Salt") && !Contains("Pepper", "Salt") && Contains("Sea Salt", "Salt")
  {
    assert StartsWith("Salt", "Salt");
    assert OccursAt("Sea Salt", "Salt", 4);
    ContainsIffOccurs("Sea Salt", "Salt");
    MissingFirstChar("Pepper", "Salt");
  }

  /** No lower-case "s" occurs in the three names, so "salt" matches none. */
  lemma LowerSaltMatches()
    ensures !Contains("Salt", "salt") && !Contains("Pepper", "salt") && !Contains("Sea Salt", "salt")
  {
    MissingFirstChar("Salt", "salt");
    MissingFirstChar("Pepper", "salt");
    MissingFirstChar("Sea Salt", "salt");
  }

  /** The selections the "Salt" and "salt" filters make. */
  lemma SaltSelections()
    ensures var salt := Ingredient(1, "Salt");
      var pepper := Ingredient(2, "Pepper");
      var seaSalt := Ingredient(3, "Sea Salt");
      && Select([salt, pepper, seaSalt], [true, false, true], true) == [salt, seaSalt]
      && Select([salt, pepper, seaSalt], [false, false, false], true) == []
  {
    var salt := Ingredient(1, "Salt");
    var pepper := Ingredient(2, "Pepper");
    var seaSalt := Ingredient(3, "Sea Salt");
    SelectThree(salt, pepper, seaSalt, [true, false, true], true);
    SelectThree(salt, pepper, seaSalt, [false, false, false], true);
  }

  /** The flags a test puts on a three-element list. */
  lemma FlagsOfThree<T>(a: T, b: T, c: T, p: T -> bool)
    ensures Flags([a, b, c], p) == [p(a), p(b), p(c)]
  {
  }

  /** The flags the "Salt" filter puts on the three ingredients. */
  lemma UpperSaltFlags()
    ensures Flags([Ingredient(1, "Salt"), Ingredient(2, "Pepper"), Ingredient(3, "Sea Salt")], Matches("Salt")) == [true, false, true]
  {
    FlagsOfThree(Ingredient(1, "Salt"), Ingredient(2, "Pepper"), Ingredient(3, "Sea Salt"), Matches("Salt"));
    UpperSaltMatches();
  }

  /** The flags the "salt" filter puts on the three ingredients. */
  lemma LowerSaltFlags()
    ensures Flags([Ingredient(1, "Salt"), Ingredient(2, "Pepper"), Ingredient(3, "Sea Salt")], Matches("salt")) == [false, false, false]
  {
    FlagsOfThree(Ingredient(1, "Salt"), Ingredient(2, "Pepper"), Ingredient(3, "Sea Salt"), Matches("salt"));
    LowerSaltMatches();
  }

  /** The filter is case-sensitive: "Salt" finds "Salt" and "Sea Salt" in
      order, while "salt" finds nothing. */
  lemma NameFilterIsCaseSensitive()
    ensures var salt := Ingredient(1, "Salt");
      var pepper := Ingredient(2, "Pepper");
      var seaSalt := Ingredient(3, "Sea Salt");
      && NameFilter([salt, pepper, seaSalt], "Salt") == [salt, seaSalt]
      && NameFilter([salt, pepper, seaSalt], "salt") == []
  {
    UpperSaltFlags();
    LowerSaltFlags();
    SaltSelections();
  }

  /** The search row's submit action (keyboard or icon): nothing happens
      while the raw text is empty; otherwise the filtered list is replaced by
      the base list filtered with the trimmed text. The base list and its
      flags are never touched. */
  function SubmitFilter(g: GroceryUIState, text: string): (r: GroceryUIState)
    ensures text == "" ==> r == g
    ensures text != "" ==> r.searchIngredients == NameFilter(g.ingredients, Trim(text))
    ensures r.ingredients == g.ingredients && r.checkBoxes == g.checkBoxes
    ensures r.allListShowing == g.allListShowing && r.searching == g.searching
  {
    if text != "" then g.(searchIngredients := NameFilter(g.ingredients, Trim(text))) else g
  }

  /** Whitespace-only text trims to "", which selects the whole base list. */
  lemma BlankFilterSelectsAll(g: GroceryUIState, text: string)
    requires text != "" && Blank(text)
    ensures SubmitFilter(g, text).searchIngredients == g.ingredients
  {
    EmptyTextSelectsAll(g.ingredients);
  }

  /** The clear button: leaves filtered mode. */
  function ClearFilter(g: GroceryUIState): (r: GroceryUIState)
    ensures !r.searching
    ensures r.ingredients == g.ingredients && r.checkBoxes == g.checkBoxes
    ensures r.searchIngredients == g.searchIngredients && r.allListShowing == g.allListShowing
  {
    g.(searching := false)
  }

  /** The filter menu: "All" or "Need/Have". */
  function SetAllShowing(g: GroceryUIState, allListShowing: bool): (r: GroceryUIState)
    ensures r.allListShowing == allListShowing
    ensures r.ingredients == g.ingredients && r.checkBoxes == g.checkBoxes
    ensures r.searching == g.searching && r.searchIngredients == g.searchIngredients
  {
    g.(allListShowing := allListShowing)
  }

  /** The list the "All" view shows: the filtered list while searching,
      otherwise the base list. */
  function Current(g: GroceryUIState): (r: seq<Ingredient>)
    ensures g.searching ==> r == g.searchIngredients
    ensures !g.searching ==> r == g.ingredients
  {
    if g.searching then g.searchIngredients else g.ingredients
  }

  /** The unchecked ingredients, in order (Kotlin reads a flag for every
      ingredient, so the flags must not be fewer). */
  function NeedList(g: GroceryUIState): (r: seq<Ingredient>)
    requires |g.ingredients| <= |g.checkBoxes|
    ensures |r| <= |g.ingredients|
    ensures forall i :: 0 <= i < |g.ingredients| && !g.checkBoxes[i] ==> g.ingredients[i] in r
  {
    SelectMembers(g.ingredients, g.checkBoxes, false);
    Select(g.ingredients, g.checkBoxes, false)
  }

  /** The checked ingredients, in order. */
  function HaveList(g: GroceryUIState): (r: seq<Ingredient>)
    requires |g.ingredients| <= |g.checkBoxes|
    ensures |r| <= |g.ingredients|
    ensures forall i :: 0 <= i < |g.ingredients| && g.checkBoxes[i] ==> g.ingredients[i] in r
  {
    SelectMembers(g.ingredients, g.checkBoxes, true);
    Select(g.ingredients, g.checkBoxes, true)
  }

  /** Need and Have split the base list: Need is the subsequence at the
      unchecked positions, Have the one at the checked positions, every
      position is in exactly one of them, and the sizes add up. */
  lemma NeedHavePartition(g: GroceryUIState)
    requires |g.ingredients| <= |g.checkBoxes|
    ensures var n := |g.ingredients|;
      && NeedList(g) == Pick(g.ingredients, Positions(g.checkBoxes, n, false))
      && HaveList(g) == Pick(g.ingredients, Positions(g.checkBoxes, n, true))
      && |NeedList(g)| + |HaveList(g)| == n
    ensures forall i :: 0 <= i < |g.ingredients| ==>
      && (i in Positions(g.checkBoxes, |g.ingredients|, false) <==> !g.checkBoxes[i])
      && (i in Positions(g.checkBoxes, |g.ingredients|, true) <==> g.checkBoxes[i])
  {
    var n := |g.ingredients|;
    SelectIsPick(g.ingredients, g.checkBoxes, false);
    SelectIsPick(g.ingredients, g.checkBoxes, true);
    PositionsSplit(g.checkBoxes, n);
    forall i | 0 <= i < n
      ensures i in Positions(g.checkBoxes, n, g.checkBoxes[i])
    {
      PositionsComplete(g.checkBoxes, n, g.checkBoxes[i], i);
    }
  }

  /** Right after a rebuild every ingredient is needed and none is had. */
  lemma RebuildNeedsEverything(g: GroceryUIState, ingredients: seq<Ingredient>)
    ensures NeedList(SetIngredients(g, ingredients)) == ingredients
    ensures HaveList(SetIngredients(g, ingredients)) == []
  {
    var r := SetIngredients(g, ingredients);
    SelectAll(ingredients, r.checkBoxes, false);
    PositionsSplit(r.checkBoxes, |ingredients|);
    SelectIsPick(ingredients, r.checkBoxes, false);
    SelectIsPick(ingredients, r.checkBoxes, true);
  }

  /** A rendered row: the ingredient shown, whether its name is struck
      through, and which flag its checkbox reads and writes (if it has one). */
  datatype Card = Card(ingredient: Ingredient, struck: bool, checkBox: Option<nat>)

  datatype Screen = AllList(cards: seq<Card>) | NeedHave(need: seq<Card>, have: seq<Card>)

  /** The screen's state can be drawn without an out-of-range flag read. */
  predicate Renderable(g: GroceryUIState) {
    if g.allListShowing then |Current(g)| <= |g.checkBoxes| else |g.ingredients| <= |g.checkBoxes|
  }

  /** `IngredientList`. In the "All" view row `k` shows the k-th current
      ingredient with flag `k`, filtered or not. In the Need/Have view the
      sections have one row per Need and per Have member, but row `k` of
      either section shows `ingredients[k]`, the k-th base ingredient; Need
      rows are plain and Have rows struck through; neither has a checkbox. */
  function Render(g: GroceryUIState): (r: Screen)
    requires Renderable(g)
    ensures g.allListShowing ==>
      && r.AllList?
      && |r.cards| == |Current(g)|
      && forall k :: 0 <= k < |r.cards| ==> r.cards[k] == Card(Current(g)[k], g.checkBoxes[k], Some(k))
    ensures !g.allListShowing ==>
      && r.NeedHave?
      && |r.need| == |NeedList(g)| && |r.have| == |HaveList(g)|
      && (forall k :: 0 <= k < |r.need| ==> r.need[k] == Card(g.ingredients[k], false, None))
      && (forall k :: 0 <= k < |r.have| ==> r.have[k] == Card(g.ingredients[k], true, None))
  {
    if g.allListShowing then
      var rows := Current(g);
      AllList(seq(|rows|, k requires 0 <= k < |rows| => Card(rows[k], g.checkBoxes[k], Some(k))))
    else
      var need := NeedList(g);
      var have := HaveList(g);
      NeedHave(
        seq(|need|, k requires 0 <= k < |need| => Card(g.ingredients[k], false, None)),
        seq(|have|, k requires 0 <= k < |have| => Card(g.ingredients[k], true, None)))
  }

  /** The Need/Have view depends on the base list and its flags only: the
      filter and filtered mode make no difference to it. */
  lemma NeedHaveIgnoresFilter(g: GroceryUIState, searching: bool, searchIngredients: seq<Ingredient>)
    requires !g.allListShowing && |g.ingredients| <= |g.checkBoxes|
    ensures Render(g.(searching := searching, searchIngredients := searchIngredients)) == Render(g)
  {
  }

  /** The Need section shows the first |Need| base ingredients, not the Need
      members; the Have section likewise shows the first |Have|. */
  lemma NeedHaveShowPrefixes(g: GroceryUIState)
    requires !g.allListShowing && |g.ingredients| <= |g.checkBoxes|
    ensures var r := Render(g);
      && (forall k :: 0 <= k < |r.need| ==> r.need[k].ingredient == g.ingredients[..|NeedList(g)|][k])
      && (forall k :: 0 <= k < |r.have| ==> r.have[k].ingredient == g.ingredients[..|HaveList(g)|][k])
  {
  }

  /** Need and Have of [Eggs, Milk] with only Eggs checked. */
  lemma EggsMilkSplit()
    ensures var eggs := Ingredient(1, "Eggs");
      var milk := Ingredient(2, "Milk");
      Select([eggs, milk], [true, false], false) == [milk] && Select([eggs, milk], [true, false], true) == [eggs]
  {
    var eggs := Ingredient(1, "Eggs");
    var milk := Ingredient(2, "Milk");
    SelectSnoc([], eggs, [true, false], false);
    SelectSnoc([eggs], milk, [true, false], false);
    SelectSnoc([], eggs, [true, false], true);
    SelectSnoc([eggs], milk, [true, false], true);
    assert [] + [eggs] == [eggs] && [eggs] + [milk] == [eggs, milk];
  }

  /** With "Eggs" checked and "Milk" not, Need holds "Milk" but its only row
      shows "Eggs", and Have's only row also shows "Eggs". */
  lemma NeedRowShowsWrongIngredient()
    ensures var eggs := Ingredient(1, "Eggs");
      var milk := Ingredient(2, "Milk");
      var g := GroceryUIState([eggs, milk], [true, false], false, false, []);
      && NeedList(g) == [milk]
      && HaveList(g) == [eggs]
      && Render(g) == NeedHave([Card(eggs, false, None)], [Card(eggs, true, None)])
  {
    var eggs := Ingredient(1, "Eggs");
    var milk := Ingredient(2, "Milk");
    var g := GroceryUIState([eggs, milk], [true, false], false, false, []);
    EggsMilkSplit();
    var r := Render(g);
    assert |r.need| == 1 && r.need[0] == Card(eggs, false, None);
    assert |r.have| == 1 && r.have[0] == Card(eggs, true, None);
    assert r.need == [Card(eggs, false, None)];
    assert r.have == [Card(eggs, true, None)];
  }

  /** `updateCheckList` with the list the checkbox built: only flag `index`
      changes. */
  function UpdateCheckBox(checkBoxes: seq<bool>, index: nat, value: bool): (r: seq<bool>)
    requires index < |checkBoxes|
    ensures |r| == |checkBoxes|
    ensures r[index] == value
    ensures forall i :: 0 <= i < |r| && i != index ==> r[i] == checkBoxes[i]
  {
    checkBoxes[index := value]
  }

  /** The checkbox of row `row` in the "All" view was set to `value`: the
      flag at the row's display position is written, whatever the row's base
      position is. */
  function CheckRow(g: GroceryUIState, row: nat, value: bool): (r: GroceryUIState)
    requires g.allListShowing && row < |Current(g)| && row < |g.checkBoxes|
    ensures r.checkBoxes == UpdateCheckBox(g.checkBoxes, row, value)
    ensures r.ingredients == g.ingredients && r.searchIngredients == g.searchIngredients
    ensures r.allListShowing && r.searching == g.searching
  {
    g.(checkBoxes := UpdateCheckBox(g.checkBoxes, row, value))
  }

  /** Unfiltered, checking row `i` moves ingredient `i` into Have and
      unchecking it moves it into Need. */
  lemma CheckRowMovesIngredient(g: GroceryUIState, i: nat, value: bool)
    requires g.allListShowing && !g.searching && Aligned(g) && i < |g.ingredients|
    ensures var r := CheckRow(g, i, value);
      && (i in Positions(r.checkBoxes, |r.ingredients|, true) <==> value)
      && (i in Positions(r.checkBoxes, |r.ingredients|, false) <==> !value)
  {
    var r := CheckRow(g, i, value);
    NeedHavePartition(r.(allListShowing := false));
  }

  /** Filtered, row `k` shows the ingredient at base position `p`, the k-th
      match, and `p` is never before `k`; the checkbox still reads and
      writes flag `k`. */
  lemma FilteredRowUsesDisplayPosition(g: GroceryUIState, text: string, k: nat)
    requires Consistent(g) && g.allListShowing && g.searching
    requires g.searchIngredients == NameFilter(g.ingredients, text)
    requires k < |g.searchIngredients|
    ensures var matches := Flags(g.ingredients, Matches(text));
      && |Positions(matches, |g.ingredients|, true)| == |g.searchIngredients|
      && Positions(matches, |g.ingredients|, true)[k] >= k
      && Current(g)[k] == g.ingredients[Positions(matches, |g.ingredients|, true)[k]]
      && Render(g).cards[k].checkBox == Some(k)
  {
    var matches := Flags(g.ingredients, Matches(text));
    NameFilterKeepsOrder(g.ingredients, text);
    PositionsAtLeastRank(matches, |g.ingredients|, true, k);
  }

  /** Filtering [Salt, Pepper, Sea Salt] for "Salt" and ticking the "Sea
      Salt" row sets the flag of "Pepper" and leaves that of "Sea Salt"
      unset. */
  lemma FilteredCheckHitsWrongIngredient()
    ensures var salt := Ingredient(1, "Salt");
      var pepper := Ingredient(2, "Pepper");
      var seaSalt := Ingredient(3, "Sea Salt");
      var g0 := GroceryUIState([salt, pepper, seaSalt], [false, false, false], true, true, []);
      var g1 := SubmitFilter(g0, "Salt");
      && Current(g1) == [salt, seaSalt]
      && CheckRow(g1, 1, true).checkBoxes == [false, true, false]
  {
    var salt := Ingredient(1, "Salt");
    var pepper := Ingredient(2, "Pepper");
    var seaSalt := Ingredient(3, "Sea Salt");
    var g0 := GroceryUIState([salt, pepper, seaSalt], [false, false, false], true, true, []);
    SaltNeedsNoTrim();
    NameFilterIsCaseSensitive();
    var g1 := SubmitFilter(g0, "Salt");
    assert g1.searchIngredients == [salt, seaSalt];
    assert CheckRow(g1, 1, true).checkBoxes == [false, false, false][1 := true];
  }

  /** "Salt" has no surrounding whitespace. */
  lemma SaltNeedsNoTrim()
    ensures Trim("Salt") == "Salt"
  {
    assert Leading("Salt") == 0;
    assert Trailing("Salt") == 0;
  }

  datatype GroceryEvent =
    | IngredientsLoaded(ingredients: seq<Ingredient>)
    | FilterSubmitted(text: string)
    | FilterCleared
    | ViewChosen(allListShowing: bool)
    | RowChecked(row: nat, value: bool)

  /** One event. Only a reload replaces the base list; a checkbox event
      writes at most the flag of its row, and one for a row the "All" view
      does not show changes nothing. */
  function Handle(g: GroceryUIState, e: GroceryEvent): (r: GroceryUIState)
    ensures !e.IngredientsLoaded? ==> r.ingredients == g.ingredients && |r.checkBoxes| == |g.checkBoxes|
    ensures e.IngredientsLoaded? ==> r.ingredients == e.ingredients && Aligned(r)
    ensures e.FilterSubmitted? || e.FilterCleared? || e.ViewChosen? ==> r.checkBoxes == g.checkBoxes
    ensures e.RowChecked? ==> forall i :: 0 <= i < |g.checkBoxes| && i != e.row ==> r.checkBoxes[i] == g.checkBoxes[i]
  {
    match e
    case IngredientsLoaded(xs) => SetIngredients(g, xs)
    case FilterSubmitted(text) => SubmitFilter(g, text)
    case FilterCleared => ClearFilter(g)
    case ViewChosen(all) => SetAllShowing(g, all)
    case RowChecked(row, value) =>
      if g.allListShowing && row < |Current(g)| && row < |g.checkBoxes| then CheckRow(g, row, value) else g
  }

  function Replay(g: GroceryUIState, events: seq<GroceryEvent>): GroceryUIState {
    if |events| == 0 then g else Handle(Replay(g, events[..|events| - 1]), events[|events| - 1])
  }

  /** Every event keeps one flag per ingredient. */
  lemma {:induction false} ReplayKeepsAligned(g: GroceryUIState, events: seq<GroceryEvent>)
    requires Aligned(g)
    ensures Aligned(Replay(g, events))
  {
    if |events| > 0 {
      ReplayKeepsAligned(g, events[..|events| - 1]);
    }
  }

  /** No reload in the events: the state stays consistent, so it can always
      be drawn. */
  lemma {:induction false} ReplayKeepsConsistent(g: GroceryUIState, events: seq<GroceryEvent>)
    requires Consistent(g)
    requires forall k :: 0 <= k < |events| ==> !events[k].IngredientsLoaded?
    ensures Consistent(Replay(g, events))
    ensures Renderable(Replay(g, events))
  {
    if |events| > 0 {
      ReplayKeepsConsistent(g, events[..|events| - 1]);
    }
  }

  /** A reload that shrinks the list while filtered mode is on leaves a
      filtered list longer than the flags, which the "All" view cannot draw. */
  lemma ShrinkingReloadBreaksFilteredView()
    ensures var salt := Ingredient(1, "Salt");
      var g := GroceryUIState([salt], [false], true, true, [salt]);
      !Renderable(SetIngredients(g, []))
  {
  }
}

=== FILE: history.dfy ===
/** The search history: an append-if-absent list of past query strings,
    persisted as one comma-joined preference string and restored by
    splitting that string on commas. */
module History {
  import opened Models
  import opened Seqs
  import opened Text

  /** The separator used both to save and to restore the history. */
  const DELIMITER: char := ','

  /** Records `term`: appended at the end when it is not already present,
      otherwise the history is left as it was. */
  function Add(history: seq<string>, term: string): (r: seq<string>)
    ensures term in r
    ensures |history| <= |r| <= |history| + 1
    ensures r[..|history|] == history
    ensures forall k :: 0 <= k < |r| ==> r[k] in history || r[k] == term
    ensures term in history <==> r == history
    ensures NoDup(history) ==> NoDup(r)
  {
    if term in history then history else history + [term]
  }

  /** The preference string the history is saved as. */
  function Persist(history: seq<string>): (r: string)
    ensures |history| >= 1 && (forall k :: 0 <= k < |history| ==> DELIMITER !in history[k]) ==>
      Split(r, DELIMITER) == history
  {
    if |history| >= 1 && (forall k :: 0 <= k < |history| ==> DELIMITER !in history[k]) then
      SplitJoin(history, DELIMITER);
      Join(history, DELIMITER)
    else
      Join(history, DELIMITER)
  }

  /** The history rebuilt from the saved preference string: an absent or
      empty string leaves the history empty, anything else is split on the
      delimiter. */
  function Restore(saved: Option<string>): (r: seq<string>)
    ensures saved == None || saved == Some("") ==> r == []
    ensures forall k :: 0 <= k < |r| ==> DELIMITER !in r[k]
    ensures saved.Some? && saved.value != "" ==> |r| >= 1
  {
    match saved
    case None => []
    case Some(s) => if s == "" then [] else Split(s, DELIMITER)
  }

  /** A history that loses nothing on a save-and-restore cycle: no term
      contains the delimiter, and it is not the single empty term (which
      saves as the empty string and so restores as no terms at all). */
  predicate Persistable(history: seq<string>) {
    && (forall k :: 0 <= k < |history| ==> DELIMITER !in history[k])
    && history != [""]
  }

  /** Saving and restoring a persistable history gives it back. */
  lemma RestorePersist(history: seq<string>)
    requires Persistable(history)
    ensures Restore(Some(Persist(history))) == history
  {
    if |history| == 1 {
      assert Persist(history) == history[0];
      assert history[0] != "";
      SplitJoin(history, DELIMITER);
    } else if |history| > 1 {
      assert Persist(history) == history[0] + [DELIMITER] + Persist(history[1..]);
      assert |Persist(history)| > 0;
      SplitJoin(history, DELIMITER);
    }
  }

  /** Restoring a saved string and saving again writes the same string. */
  lemma PersistRestore(saved: string)
    ensures Persist(Restore(Some(saved))) == saved
  {
    if saved != "" {
      JoinSplit(saved, DELIMITER);
    }
  }

  /** A term containing the delimiter comes back as two terms. */
  lemma DelimiterInTermSplitsIt()
    ensures Restore(Some(Persist(["a,b"]))) == ["a", "b"]
  {
    assert Persist(["a,b"]) == "a,b";
    assert "b"[1..] == "";
    assert Split("b", DELIMITER) == [['b'] + ""] + [""][1..];
    assert ['b'] + "" == "b";
    assert Split("b", DELIMITER) == ["b"];
    assert ",b"[0] == DELIMITER && ",b"[1..] == "b";
    assert Split(",b", DELIMITER) == [""] + ["b"];
    assert "a,b"[1..] == ",b";
    assert Split("a,b", DELIMITER) == [['a'] + ""] + ["b"];
    assert ['a'] + "" == "a";
    assert "a,b" != "";
  }

  /** The history made of the single empty term does not survive. */
  lemma EmptyTermIsLost()
    ensures Restore(Some(Persist([""]))) == []
  {
  }

  /** The history the app writes can restore with repeated terms: searching
      for `t` and then for `t,t` gives a duplicate-free history, which saves
      as `t,t,t` and comes back as three copies of `t` (with `t` = "a", the
      saved string is "a,a,a"). */
  lemma SavedHistoryCanRepeat(t: string)
    requires DELIMITER !in t
    ensures var h := Add(Add([], t), t + [DELIMITER] + t);
      && h == [t, t + [DELIMITER] + t]
      && NoDup(h)
      && Restore(Some(Persist(h))) == [t, t, t]
      && !NoDup(Restore(Some(Persist(h))))
  {
    var h := [t, t + [DELIMITER] + t];
    assert |h[1]| != |h[0]|;
    assert h[1..] == [h[1]];
    assert Persist(h) == Join(h, DELIMITER);
    assert Join(h, DELIMITER) == h[0] + [DELIMITER] + h[1];
    assert Persist(h) == t + [DELIMITER] + (t + [DELIMITER] + t);
    assert Join([t, t, t], DELIMITER) == t + [DELIMITER] + (t + [DELIMITER] + t) by {
      assert [t, t, t][1..] == [t, t];
      assert [t, t][1..] == [t];
      assert Join([t, t], DELIMITER) == t + [DELIMITER] + t;
    }
    SplitJoin([t, t, t], DELIMITER);
    assert Persist(h) != "";
  }
}

=== FILE: models.dfy ===
/** The records the recipe finder passes around: a catalog recipe and the
    grocery-list ingredient. */
module Models {

  /** Kotlin's nullable reference, written out. */
  datatype Option<+T> = None | Some(value: T)

  /** A catalog recipe. It is a Kotlin data class, so two recipes are equal
      exactly when all three fields are equal (Dafny datatype equality is
      structural in the same way). */
  datatype Recipe = Recipe(id: int, title: string, image: Option<string>)

  /** A grocery-list ingredient row read back from bookmark storage. Only the
      two fields the grocery screen reads are modelled: `id` keys the list
      rows and `name` is what the filter matches. */
  datatype Ingredient = Ingredient(id: int, name: string)
}

=== FILE: recipe_list.dfy ===
/** The recipe-list screen's glue around the view-model: the load-more
    predicate, the paging effect keyed on it, `searchRecipes`, the search row,
    the query-state observer, the choice between result grid and bookmark
    list, and the bookmark list's swipe-to-delete. `Session` strings these steps together with the fetches they leave
    in flight, so that invariants can be stated over any event sequence. */
module RecipeList {
  import opened Models
  import opened Seqs
  import opened Text
  import opened RecipeViewModel
  import History
  import ChipRow

  /** How close to the end of the loaded results the visible window may come
      before another page is wanted. */
  const PAGING_OFFSET: int := 6

  /** The derived `loadMore` value: the last visible position is within
      `PAGING_OFFSET` of the loaded results and still short of the catalog's
      total. Grid measurement is reduced to the first visible position and the
      number of visible items. */
  predicate LoadMore(firstVisible: nat, visibleCount: nat, loaded: nat, totalResults: int) {
    var lastVisible := firstVisible + visibleCount;
    lastVisible + PAGING_OFFSET > loaded && lastVisible < totalResults
  }

  /** More is wanted only while the window is near the end and short of the
      total; in particular never when the catalog reported no results. */
  lemma LoadMoreBounds(firstVisible: nat, visibleCount: nat, loaded: nat, totalResults: int)
    ensures LoadMore(firstVisible, visibleCount, loaded, totalResults) ==>
      && totalResults > 0
      && loaded < firstVisible + visibleCount + PAGING_OFFSET
      && firstVisible + visibleCount < totalResults
    ensures totalResults <= 0 ==> !LoadMore(firstVisible, visibleCount, loaded, totalResults)
  {
  }

  /** With 40 results loaded out of 45, no further page is wanted until the
      last visible position passes 34, and none once it reaches 45. */
  lemma LoadMoreAfterTwoPages(firstVisible: nat, visibleCount: nat)
    ensures firstVisible + visibleCount <= 34 ==> !LoadMore(firstVisible, visibleCount, 40, 45)
    ensures 35 <= firstVisible + visibleCount < 45 ==> LoadMore(firstVisible, visibleCount, 40, 45)
    ensures firstVisible + visibleCount >= 45 ==> !LoadMore(firstVisible, visibleCount, 40, 45)
  {
  }

  /** A view-model step together with the catalog search it issued, if any. */
  datatype Step = Step(vm: ViewModel, fetch: Option<FetchRequest>)

  /** `searchRecipes`: an empty string only clears `searching`; any other
      string is recorded in the history and searched for at the current
      query-state offset. */
  function SearchRecipes(vm: ViewModel, searchString: string): (r: Step)
    ensures searchString == "" ==>
      && r.fetch == None
      && !r.vm.ui.searching
      && r.vm.ui.previousSearches == vm.ui.previousSearches && r.vm.saved == vm.saved
    ensures searchString != "" ==>
      && r.fetch == Some(FetchRequest(searchString, vm.queryState.offset, PAGE_SIZE))
      && r.vm.ui.previousSearches == History.Add(vm.ui.previousSearches, searchString)
      && r.vm.saved == (if searchString in vm.ui.previousSearches then vm.saved
                        else Some(History.Persist(r.vm.ui.previousSearches)))
      && r.vm.ui.searching == vm.ui.searching
    ensures r.vm.recipes == vm.recipes && r.vm.queryState == vm.queryState && r.vm.bookmarks == vm.bookmarks
    ensures r.vm.ui.allChecked == vm.ui.allChecked && r.vm.ui.bookmarksChecked == vm.ui.bookmarksChecked
  {
    if searchString != "" then
      Step(AddPreviousSearch(vm, searchString), Some(FetchRequest(searchString, vm.queryState.offset, PAGE_SIZE)))
    else
      Step(vm.(ui := SetSearching(vm.ui, false)), None)
  }

  /** The search row's keyboard action: mark the screen as searching, then
      search for the trimmed text. Whitespace-only text ends not searching,
      with the history untouched and nothing fetched. */
  function KeyboardSearch(vm: ViewModel, text: string): (r: Step)
    ensures Blank(text) ==>
      && r.fetch == None
      && !r.vm.ui.searching
      && r.vm.ui.previousSearches == vm.ui.previousSearches
      && r.vm.saved == vm.saved
    ensures !Blank(text) ==>
      && r.fetch == Some(FetchRequest(Trim(text), vm.queryState.offset, PAGE_SIZE))
      && r.vm.ui.searching
      && r.vm.ui.previousSearches == History.Add(vm.ui.previousSearches, Trim(text))
      && r.vm.saved == (if Trim(text) in vm.ui.previousSearches then vm.saved
                        else Some(History.Persist(r.vm.ui.previousSearches)))
    ensures r.vm.recipes == vm.recipes && r.vm.queryState == vm.queryState && r.vm.bookmarks == vm.bookmarks
    ensures r.vm.ui.allChecked == vm.ui.allChecked && r.vm.ui.bookmarksChecked == vm.ui.bookmarksChecked
  {
    SearchRecipes(vm.(ui := SetSearching(vm.ui, true)), Trim(text))
  }

  /** The search row's search icon: ignored while the raw text is empty,
      otherwise the same as the keyboard action. */
  function IconSearch(vm: ViewModel, text: string): (r: Step)
    ensures text == "" ==> r == Step(vm, None)
    ensures text != "" ==> r == KeyboardSearch(vm, text)
  {
    if text != "" then KeyboardSearch(vm, text) else Step(vm, None)
  }

  /** The two ways to submit differ only on empty text: the keyboard action
      still clears `searching`, the icon leaves it as it was. */
  lemma SubmitEmptyText(vm: ViewModel)
    requires vm.ui.searching
    ensures !KeyboardSearch(vm, "").vm.ui.searching
    ensures IconSearch(vm, "").vm.ui.searching
  {
  }

  /** The query-state observer: any query state with a positive page size
      clears `searching`. */
  function ObserveQueryState(vm: ViewModel): (r: ViewModel)
    ensures vm.queryState.number > 0 ==> !r.ui.searching
    ensures vm.queryState.number <= 0 ==> r == vm
    ensures r.recipes == vm.recipes && r.queryState == vm.queryState && r.bookmarks == vm.bookmarks
    ensures r.ui.previousSearches == vm.ui.previousSearches && r.saved == vm.saved
    ensures r.ui.allChecked == vm.ui.allChecked && r.ui.bookmarksChecked == vm.ui.bookmarksChecked
  {
    if vm.queryState.number > 0 then vm.(ui := SetSearching(vm.ui, false)) else vm
  }

  /** What the screen shows below the chips. */
  datatype Body = ResultGrid | BookmarkList
  datatype Layout = Layout(searchRow: bool, body: Body)

  /** The search row and the result grid are shown when "All" is selected;
      otherwise the bookmark list is shown. */
  function ScreenLayout(ui: UIState): (r: Layout)
    ensures r.searchRow <==> ui.allChecked
    ensures r.body == ResultGrid <==> ui.allChecked
    ensures r.body == BookmarkList <==> !ui.allChecked
  {
    if ui.allChecked then Layout(true, ResultGrid) else Layout(false, BookmarkList)
  }

  /** Whatever chips are clicked from the defaults, a selected "Bookmarks"
      chip always comes with the bookmark list; and the bookmark list is also
      what shows when neither chip is selected. */
  lemma LayoutFollowsChips(chips: seq<ChipRow.Chip>)
    ensures var ui := ChipRow.ClickAllOf(DefaultUIState, chips);
      ui.bookmarksChecked ==> ScreenLayout(ui) == Layout(false, BookmarkList)
    ensures ScreenLayout(ChipRow.ClickAllOf(DefaultUIState, [ChipRow.All])) == Layout(false, BookmarkList)
  {
    ChipRow.NeverBothFromDefaults(chips);
    ChipRow.ExclusiveSelectionsReachable(false, false);
  }

  /** The paging effect's remembered state: whether it has run yet, and the
      `loadMore` value it last ran for (the effect's key). */
  datatype Paging = Paging(firstTime: bool, key: Option<bool>)

  const InitialPaging: Paging := Paging(true, None)

  /** One run of the paging effect: the offset becomes 0 on the first run and
      advances by one page on every later run; then the current query is
      searched for at that offset. */
  function PagingEffect(firstTime: bool, vm: ViewModel): (r: Step)
    ensures firstTime ==> r.vm.queryState.offset == 0
    ensures !firstTime ==> r.vm.queryState.offset == vm.queryState.offset + PAGE_SIZE
    ensures r.vm.queryState.query == vm.queryState.query
    ensures r.vm.queryState.number == vm.queryState.number
    ensures r.vm.queryState.totalResults == vm.queryState.totalResults
    ensures vm.queryState.query == "" ==> r.fetch == None && !r.vm.ui.searching
    ensures vm.queryState.query != "" ==>
      r.fetch == Some(FetchRequest(vm.queryState.query, r.vm.queryState.offset, PAGE_SIZE))
    ensures r.vm.recipes == vm.recipes && r.vm.bookmarks == vm.bookmarks
    ensures r.vm.ui.allChecked == vm.ui.allChecked && r.vm.ui.bookmarksChecked == vm.ui.bookmarksChecked
  {
    var offset := if firstTime then 0 else vm.queryState.offset + PAGE_SIZE;
    var moved := UpdateQueryState(vm, vm.queryState.(offset := offset));
    SearchRecipes(moved, vm.queryState.query)
  }

  /** A recomposition that observes `loadMore`: the effect runs when the
      observed value differs from its key (always on the first composition),
      whichever way the value changed. */
  function Recompose(p: Paging, vm: ViewModel, loadMore: bool): (r: (Paging, Step))
    ensures p.key == Some(loadMore) ==> r == (p, Step(vm, None))
    ensures p.key != Some(loadMore) ==>
      && r.0 == Paging(false, Some(loadMore))
      && r.1.vm.queryState.offset == (if p.firstTime then 0 else vm.queryState.offset + PAGE_SIZE)
      && r.1.fetch == (if vm.queryState.query == "" then None
                       else Some(FetchRequest(vm.queryState.query, r.1.vm.queryState.offset, PAGE_SIZE)))
    ensures r.1.vm.queryState.number == vm.queryState.number
    ensures r.1.vm.ui.allChecked == vm.ui.allChecked && r.1.vm.ui.bookmarksChecked == vm.ui.bookmarksChecked
  {
    if p.key == Some(loadMore) then (p, Step(vm, None))
    else (Paging(false, Some(loadMore)), PagingEffect(p.firstTime, vm))
  }

  /** The state after a series of recompositions with no completion in
      between, and the searches they issued. */
  datatype Recomposed = Recomposed(paging: Paging, vm: ViewModel, issued: seq<FetchRequest>)

  function RecomposeAll(p: Paging, vm: ViewModel, values: seq<bool>): Recomposed {
    if |values| == 0 then Recomposed(p, vm, [])
    else
      var before := RecomposeAll(p, vm, values[..|values| - 1]);
      var (p', step) := Recompose(before.paging, before.vm, values[|values| - 1]);
      Recomposed(p', step.vm, before.issued + if step.fetch.Some? then [step.fetch.value] else [])
  }

  /** How often consecutive observed values differ. */
  function Changes(values: seq<bool>): nat {
    if |values| <= 1 then 0
    else Changes(values[..|values| - 1]) + if values[|values| - 1] != values[|values| - 2] then 1 else 0
  }

  /** From a fresh screen, the effect runs once for the first observed value
      and once for every change after it, in either direction. The offset is
      then one page per change, and with a non-empty query the searches
      issued are for offsets 0, 20, 40, ... in that order. */
  lemma PagingOffsets(vm: ViewModel, values: seq<bool>)
    requires |values| >= 1
    ensures var r := RecomposeAll(InitialPaging, vm, values);
      && r.paging == Paging(false, Some(values[|values| - 1]))
      && r.vm.queryState.query == vm.queryState.query
      && r.vm.queryState.offset == PAGE_SIZE * Changes(values)
      && (vm.queryState.query == "" ==> r.issued == [])
      && (vm.queryState.query != "" ==>
            && |r.issued| == Changes(values) + 1
            && forall k :: 0 <= k < |r.issued| ==>
                 r.issued[k] == FetchRequest(vm.queryState.query, PAGE_SIZE * k, PAGE_SIZE))
  {
    PagingState(vm, values);
    PagingIssued(vm, values);
  }

  /** The paging state, query and offset after the observations. */
  lemma {:induction false} PagingState(vm: ViewModel, values: seq<bool>)
    requires |values| >= 1
    ensures var r := RecomposeAll(InitialPaging, vm, values);
      && r.paging == Paging(false, Some(values[|values| - 1]))
      && r.vm.queryState.query == vm.queryState.query
      && r.vm.queryState.offset == PAGE_SIZE * Changes(values)
  {
    var n := |values|;
    if n == 1 {
      assert values[..0] == [];
    } else {
      var front := values[..n - 1];
      assert front[..n - 2] == values[..n - 2];
      assert front[|front| - 1] == values[n - 2];
      PagingState(vm, front);
    }
  }

  /** The searches the observations issue. */
  lemma {:induction false} PagingIssued(vm: ViewModel, values: seq<bool>)
    requires |values| >= 1
    ensures var r := RecomposeAll(InitialPaging, vm, values);
      && (vm.queryState.query == "" ==> r.issued == [])
      && (vm.queryState.query != "" ==>
            && |r.issued| == Changes(values) + 1
            && forall k :: 0 <= k < |r.issued| ==>
                 r.issued[k] == FetchRequest(vm.queryState.query, PAGE_SIZE * k, PAGE_SIZE))
  {
    var n := |values|;
    if n == 1 {
      assert values[..0] == [];
    } else {
      var front := values[..n - 1];
      assert front[..n - 2] == values[..n - 2];
      assert front[|front| - 1] == values[n - 2];
      PagingState(vm, front);
      PagingIssued(vm, front);
    }
  }

  /** The screen together with the searches issued and not yet completed. */
  datatype Session = Session(vm: ViewModel, paging: Paging, inFlight: seq<FetchRequest>)

  datatype Event =
    | LoadMoreObserved(firstVisible: nat, visibleCount: nat)
    | KeyboardSearched(text: string)
    | SearchIconClicked(text: string)
    | FetchArrived(k: nat, outcome: FetchOutcome)
    | ChipClicked(chip: ChipRow.Chip)
    | BookmarkSwiped(index: nat)

  /** Applies a step's view-model and records the search it issued. */
  function Issue(s: Session, step: Step): Session {
    s.(vm := step.vm, inFlight := s.inFlight + if step.fetch.Some? then [step.fetch.value] else [])
  }

  /** The result grid entering the composition. Its grid state is new, so
      nothing is scrolled or measured yet and `loadMore` is computed from an
      empty window; the paging effect's state is new too, so the effect runs
      at once as a first run: the offset becomes 0 and the current query is
      searched there, or `searching` is cleared when there is no query. */
  function ComposeGrid(s: Session): (r: Session)
    ensures r.paging == Paging(false, Some(LoadMore(0, 0, |s.vm.recipes|, s.vm.queryState.totalResults)))
    ensures r.vm.queryState == s.vm.queryState.(offset := 0)
    ensures s.vm.queryState.query == "" ==> r.inFlight == s.inFlight && !r.vm.ui.searching
    ensures s.vm.queryState.query != "" ==>
      r.inFlight == s.inFlight + [FetchRequest(s.vm.queryState.query, 0, PAGE_SIZE)]
    ensures r.vm.recipes == s.vm.recipes && r.vm.bookmarks == s.vm.bookmarks
    ensures r.vm.ui.allChecked == s.vm.ui.allChecked && r.vm.ui.bookmarksChecked == s.vm.ui.bookmarksChecked
  {
    var value := LoadMore(0, 0, |s.vm.recipes|, s.vm.queryState.totalResults);
    var (p, step) := Recompose(InitialPaging, s.vm, value);
    Issue(s.(paging := p), step)
  }

  /** A fresh screen: "All" is selected, so the result grid is composed and
      its paging effect runs once with no query, which issues nothing; the
      query-state collector then sees the query state once when it starts
      collecting. */
  function Start(saved: Option<string>): (r: Session)
    ensures r.paging == Paging(false, Some(false))
    ensures r.inFlight == []
    ensures r.vm.recipes == [] && r.vm.bookmarks == [] && r.vm.queryState == DefaultQueryState
    ensures !r.vm.ui.searching && r.vm.ui.allChecked && !r.vm.ui.bookmarksChecked
    ensures r.vm.ui.previousSearches == History.Restore(saved) && r.vm.saved == saved
  {
    var s := ComposeGrid(Session(Create(saved), InitialPaging, []));
    s.(vm := ObserveQueryState(s.vm))
  }

  /** Whether the event is a swipe on a bookmark the bookmark list shows. */
  predicate SwipesBookmark(s: Session, e: Event) {
    e.BookmarkSwiped? && !s.vm.ui.allChecked && e.index < |s.vm.bookmarks|
  }

  /** One event, before the query-state collector reacts to it. A grid
      observation recomputes `loadMore` from the visible window and the loaded
      results, and the search row's actions act on its text; both happen only
      while "All" is selected, because only then are the result grid and the
      search row composed. A fetch arrival names any in-flight search, so
      completions may come in any order; an arrival for no in-flight search
      changes nothing. A chip click that hides the result grid discards the
      paging effect's remembered state with it; one that shows the grid again
      composes it afresh. A swipe on a row of the bookmark list, shown only
      while "All" is not selected, deletes that bookmark by value. */
  function Apply(s: Session, e: Event): (r: Session)
    ensures !SwipesBookmark(s, e) ==> r.vm.bookmarks == s.vm.bookmarks
    ensures SwipesBookmark(s, e) ==>
      && multiset(r.vm.bookmarks) == multiset(s.vm.bookmarks) - multiset{s.vm.bookmarks[e.index]}
      && r.vm.recipes == s.vm.recipes && r.vm.queryState == s.vm.queryState && r.vm.ui == s.vm.ui
      && r.inFlight == s.inFlight
    ensures |r.inFlight| <= |s.inFlight| + 1
  {
    match e
    case LoadMoreObserved(firstVisible, visibleCount) =>
      if s.vm.ui.allChecked then
        var value := LoadMore(firstVisible, visibleCount, |s.vm.recipes|, s.vm.queryState.totalResults);
        var (p, step) := Recompose(s.paging, s.vm, value);
        Issue(s.(paging := p), step)
      else s
    case KeyboardSearched(text) =>
      if s.vm.ui.allChecked then Issue(s, KeyboardSearch(s.vm, text)) else s
    case SearchIconClicked(text) =>
      if s.vm.ui.allChecked then Issue(s, IconSearch(s.vm, text)) else s
    case FetchArrived(k, outcome) =>
      if k < |s.inFlight| then
        s.(vm := FetchCompleted(s.vm, s.inFlight[k], outcome), inFlight := s.inFlight[..k] + s.inFlight[k + 1..])
      else s
    case ChipClicked(chip) =>
      var ui := ChipRow.Click(s.vm.ui, chip);
      var clicked := s.(vm := s.vm.(ui := ui));
      if !ui.allChecked then clicked.(paging := InitialPaging)
      else if !s.vm.ui.allChecked then ComposeGrid(clicked)
      else clicked
    case BookmarkSwiped(index) =>
      if !s.vm.ui.allChecked && index < |s.vm.bookmarks| then
        DeleteBookmarkRemovesOneCopy(s.vm, s.vm.bookmarks[index]);
        s.(vm := DeleteBookmark(s.vm, s.vm.bookmarks[index]))
      else s
  }

  /** One event, followed by the query-state collector. The collector of a
      `StateFlow` runs only when the flow takes a new value, so it runs
      exactly when the event changed the query state. */
  function Handle(s: Session, e: Event): (r: Session)
    ensures !SwipesBookmark(s, e) ==> r.vm.bookmarks == s.vm.bookmarks
    ensures SwipesBookmark(s, e) ==>
      multiset(r.vm.bookmarks) == multiset(s.vm.bookmarks) - multiset{s.vm.bookmarks[e.index]}
    ensures |r.inFlight| <= |s.inFlight| + 1
  {
    var n := Apply(s, e);
    if n.vm.queryState != s.vm.queryState then n.(vm := ObserveQueryState(n.vm)) else n
  }

  /** The events applied in order. Bookmarks only ever go: the result's
      bookmarks are a sub-multiset of the start's, and equal to them when no
      event is a bookmark swipe. Each event issues at most one search. */
  function Replay(s: Session, events: seq<Event>): (r: Session)
    ensures multiset(r.vm.bookmarks) <= multiset(s.vm.bookmarks)
    ensures (forall k :: 0 <= k < |events| ==> !events[k].BookmarkSwiped?) ==> r.vm.bookmarks == s.vm.bookmarks
    ensures |r.inFlight| <= |s.inFlight| + |events|
  {
    if |events| == 0 then s else Handle(Replay(s, events[..|events| - 1]), events[|events| - 1])
  }

  predicate PageAligned(offset: int) {
    offset >= 0 && offset % PAGE_SIZE == 0
  }

  /** What every session keeps: offsets, in the query state and in every
      search in flight, are non-negative whole pages; page sizes are
      `PAGE_SIZE`; at most one chip is selected. */
  predicate Sound(s: Session) {
    && PageAligned(s.vm.queryState.offset)
    && s.vm.queryState.number == PAGE_SIZE
    && (forall k :: 0 <= k < |s.inFlight| ==> PageAligned(s.inFlight[k].offset) && s.inFlight[k].number == PAGE_SIZE)
    && ChipRow.Exclusive(s.vm.ui)
  }

  /** Every fresh session is sound, whatever string was saved. */
  lemma StartSound(saved: Option<string>)
    ensures Sound(Start(saved))
  {
  }

  lemma IssueSound(s: Session, step: Step)
    requires Sound(s)
    requires PageAligned(step.vm.queryState.offset) && step.vm.queryState.number == PAGE_SIZE
    requires step.fetch.Some? ==> PageAligned(step.fetch.value.offset) && step.fetch.value.number == PAGE_SIZE
    requires ChipRow.Exclusive(step.vm.ui)
    ensures Sound(Issue(s, step))
  {
    var r := Issue(s, step);
    forall k | 0 <= k < |r.inFlight|
      ensures PageAligned(r.inFlight[k].offset) && r.inFlight[k].number == PAGE_SIZE
    {
      if k < |s.inFlight| {
        assert r.inFlight[k] == s.inFlight[k];
      }
    }
  }

  /** Every event keeps a session sound. */
  lemma HandleSound(s: Session, e: Event)
    requires Sound(s)
    ensures Sound(Handle(s, e))
  {
    ApplySound(s, e);
  }

  /** An event before the collector reacts keeps a session sound. */
  lemma ApplySound(s: Session, e: Event)
    requires Sound(s)
    ensures Sound(Apply(s, e))
  {
    match e
    case LoadMoreObserved(firstVisible, visibleCount) => ObservationSound(s, firstVisible, visibleCount);
    case KeyboardSearched(text) => SearchSound(s, text);
    case SearchIconClicked(text) => SearchSound(s, text);
    case FetchArrived(k, outcome) => ArrivalSound(s, k, outcome);
    case ChipClicked(chip) => ChipSound(s, chip);
    case BookmarkSwiped(index) =>
  }

  lemma ChipSound(s: Session, chip: ChipRow.Chip)
    requires Sound(s)
    ensures Sound(Apply(s, ChipClicked(chip)))
  {
    var ui := ChipRow.Click(s.vm.ui, chip);
    if ui.allChecked && !s.vm.ui.allChecked {
      var clicked := s.(vm := s.vm.(ui := ui));
      var value := LoadMore(0, 0, |clicked.vm.recipes|, clicked.vm.queryState.totalResults);
      RecomposeSound(InitialPaging, clicked.vm, value);
      var (p, step) := Recompose(InitialPaging, clicked.vm, value);
      IssueSound(clicked.(paging := p), step);
    }
  }

  /** A run of the paging effect, or none, keeps offsets whole pages and
      leaves the chips alone. */
  lemma RecomposeSound(p: Paging, vm: ViewModel, loadMore: bool)
    requires PageAligned(vm.queryState.offset) && vm.queryState.number == PAGE_SIZE && ChipRow.Exclusive(vm.ui)
    ensures var step := Recompose(p, vm, loadMore).1;
      && PageAligned(step.vm.queryState.offset) && step.vm.queryState.number == PAGE_SIZE
      && (step.fetch.Some? ==> PageAligned(step.fetch.value.offset) && step.fetch.value.number == PAGE_SIZE)
      && ChipRow.Exclusive(step.vm.ui)
  {
  }

  lemma ObservationSound(s: Session, firstVisible: nat, visibleCount: nat)
    requires Sound(s)
    ensures Sound(Apply(s, LoadMoreObserved(firstVisible, visibleCount)))
  {
    if s.vm.ui.allChecked {
      var value := LoadMore(firstVisible, visibleCount, |s.vm.recipes|, s.vm.queryState.totalResults);
      RecomposeSound(s.paging, s.vm, value);
      var (p, step) := Recompose(s.paging, s.vm, value);
      IssueSound(s.(paging := p), step);
    }
  }

  lemma SearchSound(s: Session, text: string)
    requires Sound(s)
    ensures Sound(Apply(s, KeyboardSearched(text)))
    ensures Sound(Apply(s, SearchIconClicked(text)))
  {
    if s.vm.ui.allChecked {
      IssueSound(s, KeyboardSearch(s.vm, text));
      IssueSound(s, IconSearch(s.vm, text));
    }
  }

  lemma ArrivalSound(s: Session, k: nat, outcome: FetchOutcome)
    requires Sound(s)
    ensures Sound(Apply(s, FetchArrived(k, outcome)))
  {
    if k < |s.inFlight| {
      var rest := s.inFlight[..k] + s.inFlight[k + 1..];
      forall j | 0 <= j < |rest|
        ensures PageAligned(rest[j].offset) && rest[j].number == PAGE_SIZE
      {
        if j < k { assert rest[j] == s.inFlight[j]; } else { assert rest[j] == s.inFlight[j + 1]; }
      }
    }
  }

  /** Soundness holds after any sequence of events. */
  lemma {:induction false} ReplaySound(s: Session, events: seq<Event>)
    requires Sound(s)
    ensures Sound(Replay(s, events))
  {
    if |events| > 0 {
      ReplaySound(s, events[..|events| - 1]);
      HandleSound(Replay(s, events[..|events| - 1]), events[|events| - 1]);
    }
  }

  /** In a sound session the query-state collector always clears
      `searching`, because the page size is positive. */
  lemma ObserverClearsSearching(s: Session)
    requires Sound(s)
    ensures !ObserveQueryState(s.vm).ui.searching
  {
  }

  /** A completion that gives the query state a new value clears
      `searching`: the spinner goes away once a page arrives that differs
      from the last one's query state. */
  lemma NewQueryStateClearsSearching(s: Session, k: nat, page: seq<Recipe>, total: int)
    requires Sound(s) && k < |s.inFlight|
    requires FetchCompleted(s.vm, s.inFlight[k], Fetched(page, total)).queryState != s.vm.queryState
    ensures !Handle(s, FetchArrived(k, Fetched(page, total))).vm.ui.searching
  {
  }

  /** A failed completion leaves the query state as it was, so the collector
      does not run and `searching` stays as it was. */
  lemma FailedCompletionKeepsSearching(s: Session, k: nat)
    ensures Handle(s, FetchArrived(k, FetchFailed)).vm.ui.searching == s.vm.ui.searching
    ensures k < |s.inFlight| ==>
      var r := Handle(s, FetchArrived(k, FetchFailed));
      && r.vm.recipes == [] && r.vm.queryState == s.vm.queryState
      && r.inFlight == s.inFlight[..k] + s.inFlight[k + 1..]
  {
  }

  /** Right after a search fails the spinner is still on: the keyboard
      action sets `searching`, and neither the search nor its failure changes
      the query state, so the collector has not run to clear it. */
  lemma FailedSearchKeepsSpinner(s: Session, text: string)
    requires s.vm.ui.allChecked && !Blank(text)
    ensures var s1 := Handle(s, KeyboardSearched(text));
      var s2 := Handle(s1, FetchArrived(|s.inFlight|, FetchFailed));
      && s1.inFlight == s.inFlight + [FetchRequest(Trim(text), s.vm.queryState.offset, PAGE_SIZE)]
      && s2.inFlight == s.inFlight
      && s2.vm.recipes == []
      && s2.vm.ui.searching
  {
    NewSearchKeepsOffsetAndResults(s, text);
    var s1 := Handle(s, KeyboardSearched(text));
    FailedCompletionKeepsSearching(s1, |s.inFlight|);
    assert s1.inFlight[..|s.inFlight|] + s1.inFlight[|s.inFlight| + 1..] == s.inFlight;
  }

  /** While the bookmark list shows, neither the search row nor the result
      grid is composed: their events change nothing. */
  lemma BookmarksViewIgnoresSearchRow(s: Session, text: string, firstVisible: nat, visibleCount: nat)
    requires !s.vm.ui.allChecked
    ensures Handle(s, KeyboardSearched(text)) == s
    ensures Handle(s, SearchIconClicked(text)) == s
    ensures Handle(s, LoadMoreObserved(firstVisible, visibleCount)) == s
  {
  }

  /** A new search neither resets the offset nor clears the results: the
      search goes out at the offset the last page was fetched at, and the
      old results stay until its page is appended to them. */
  lemma NewSearchKeepsOffsetAndResults(s: Session, text: string)
    requires s.vm.ui.allChecked && !Blank(text)
    ensures var r := Handle(s, KeyboardSearched(text));
      && r.inFlight == s.inFlight + [FetchRequest(Trim(text), s.vm.queryState.offset, PAGE_SIZE)]
      && r.vm.recipes == s.vm.recipes
      && r.vm.queryState == s.vm.queryState
      && r.paging == s.paging
      && r.vm.ui.allChecked
      && r.vm.ui.searching
  {
  }

  /** Overlapping searches race: completions are not matched against the
      current query. With searches `a` and then `b` in flight, if `b`'s page
      arrives first and `a`'s last, the results hold both pages in arrival
      order and the query state names `a`, the older search. */
  lemma OverlappingSearchesRace(s: Session, pageA: seq<Recipe>, totalA: int, pageB: seq<Recipe>, totalB: int)
    requires |s.inFlight| == 2
    ensures var a := s.inFlight[0];
      var r := Handle(Handle(s, FetchArrived(1, Fetched(pageB, totalB))), FetchArrived(0, Fetched(pageA, totalA)));
      && r.vm.recipes == s.vm.recipes + pageB + pageA
      && r.vm.queryState == QueryState(a.query, a.offset, a.number, totalA)
      && r.inFlight == []
  {
    var a := s.inFlight[0];
    var s1 := Handle(s, FetchArrived(1, Fetched(pageB, totalB)));
    assert s1.inFlight == [a];
  }

  /** Once `loadMore` was last seen false, a window that reaches the
      catalog's reported total issues nothing. */
  lemma WindowAtTotalStopsPaging(s: Session, firstVisible: nat, visibleCount: nat)
    requires s.paging.key == Some(false)
    requires firstVisible + visibleCount >= s.vm.queryState.totalResults
    ensures Handle(s, LoadMoreObserved(firstVisible, visibleCount)) == s
  {
    assert s.inFlight + [] == s.inFlight;
  }

  /** Having every result loaded does not stop paging: a window that ends
      within `PAGING_OFFSET` of the end but short of the total still asks for
      the page after the last, beyond the catalog's total. */
  lemma LoadedCatalogStillPagedNearEnd(s: Session, firstVisible: nat, visibleCount: nat)
    requires s.vm.ui.allChecked && s.paging == Paging(false, Some(false))
    requires s.vm.queryState.query != ""
    requires |s.vm.recipes| == s.vm.queryState.totalResults
    requires s.vm.queryState.totalResults - PAGING_OFFSET < firstVisible + visibleCount < s.vm.queryState.totalResults
    ensures var r := Handle(s, LoadMoreObserved(firstVisible, visibleCount));
      && r.inFlight == s.inFlight + [FetchRequest(s.vm.queryState.query, s.vm.queryState.offset + PAGE_SIZE, PAGE_SIZE)]
      && |r.vm.recipes| == r.vm.queryState.totalResults
  {
    NearEndFetchesNextPage(s, firstVisible, visibleCount);
  }

  /** Once `loadMore` was last seen false, a catalog that reported no
      results is never paged, wherever the window is. */
  lemma NoResultsNoPaging(s: Session, firstVisible: nat, visibleCount: nat)
    requires s.paging.key == Some(false)
    requires s.vm.queryState.totalResults <= 0
    ensures Handle(s, LoadMoreObserved(firstVisible, visibleCount)) == s
  {
    LoadMoreBounds(firstVisible, visibleCount, |s.vm.recipes|, s.vm.queryState.totalResults);
    assert s.inFlight + [] == s.inFlight;
  }

  /** Scrolling near the end of the loaded results, short of the total,
      asks for the page after the last one fetched. */
  lemma NearEndFetchesNextPage(s: Session, firstVisible: nat, visibleCount: nat)
    requires s.vm.ui.allChecked && s.paging == Paging(false, Some(false))
    requires s.vm.queryState.query != ""
    requires LoadMore(firstVisible, visibleCount, |s.vm.recipes|, s.vm.queryState.totalResults)
    ensures var r := Handle(s, LoadMoreObserved(firstVisible, visibleCount));
      && r.paging == Paging(false, Some(true))
      && r.inFlight == s.inFlight + [FetchRequest(s.vm.queryState.query, s.vm.queryState.offset + PAGE_SIZE, PAGE_SIZE)]
      && r.vm.recipes == s.vm.recipes
  {
  }

  /** Leaving "All" and coming back restarts paging: the effect's
      remembered state went with the hidden grid, so the grid's first
      composition searches the current query at offset 0 again, at once and
      before any scrolling, while the old results stay; the page that
      arrives is appended after them. */
  lemma ReturningToAllRefetchesFirstPage(s: Session, page: seq<Recipe>, total: int)
    requires s.vm.ui.allChecked && s.vm.queryState.query != ""
    ensures var back := Handle(Handle(s, ChipClicked(ChipRow.All)), ChipClicked(ChipRow.All));
      var done := Handle(back, FetchArrived(|s.inFlight|, Fetched(page, total)));
      && back.vm.ui.allChecked
      && back.paging == Paging(false, Some(LoadMore(0, 0, |s.vm.recipes|, s.vm.queryState.totalResults)))
      && back.inFlight == s.inFlight + [FetchRequest(s.vm.queryState.query, 0, PAGE_SIZE)]
      && back.vm.recipes == s.vm.recipes
      && done.vm.recipes == s.vm.recipes + page
      && done.vm.queryState.offset == 0
  {
    ChipHidesGrid(s, ChipRow.All);
    var away := Handle(s, ChipClicked(ChipRow.All));
    ChipShowsGrid(away, ChipRow.All);
    var back := Handle(away, ChipClicked(ChipRow.All));
    NewestSearchArrives(back, page, total);
    assert back.inFlight[..|s.inFlight|] == s.inFlight;
  }

  /** A chip click that leaves "All" unselected hides the result grid and
      forgets the paging effect's state; nothing is fetched and the view-model
      changes only in its chips. */
  lemma ChipHidesGrid(s: Session, chip: ChipRow.Chip)
    requires !ChipRow.Click(s.vm.ui, chip).allChecked
    ensures Handle(s, ChipClicked(chip)) == s.(vm := s.vm.(ui := ChipRow.Click(s.vm.ui, chip)), paging := InitialPaging)
  {
  }

  /** A chip click that selects "All" again composes the result grid afresh:
      the paging effect runs at once as a first run, moving the offset to 0
      and searching the current query there, before any scrolling. */
  lemma ChipShowsGrid(s: Session, chip: ChipRow.Chip)
    requires !s.vm.ui.allChecked && ChipRow.Click(s.vm.ui, chip).allChecked
    ensures var r := Handle(s, ChipClicked(chip));
      && r.vm.ui.allChecked
      && r.paging == Paging(false, Some(LoadMore(0, 0, |s.vm.recipes|, s.vm.queryState.totalResults)))
      && r.vm.queryState.query == s.vm.queryState.query && r.vm.queryState.offset == 0
      && r.vm.recipes == s.vm.recipes
      && (s.vm.queryState.query == "" ==> r.inFlight == s.inFlight)
      && (s.vm.queryState.query != "" ==>
            r.inFlight == s.inFlight + [FetchRequest(s.vm.queryState.query, 0, PAGE_SIZE)])
  {
  }

  /** A search made before any scrolling is fetched once. The grid's first
      run of the paging effect happened at start, with no query, so the
      search goes out at offset 0; once its page has arrived, an observation
      whose window does not call for more leaves `loadMore` at the value the
      effect last ran for, and nothing more is fetched. With 20 results of 45
      loaded, the window of the first 6 is such a window. */
  lemma SearchBeforeScrollFetchedOnce(saved: Option<string>, text: string, page: seq<Recipe>, total: int,
                                      firstVisible: nat, visibleCount: nat)
    requires !Blank(text)
    requires !LoadMore(firstVisible, visibleCount, |page|, total)
    ensures var s1 := Handle(Start(saved), KeyboardSearched(text));
      var s2 := Handle(s1, FetchArrived(0, Fetched(page, total)));
      var s3 := Handle(s2, LoadMoreObserved(firstVisible, visibleCount));
      && s1.inFlight == [FetchRequest(Trim(text), 0, PAGE_SIZE)]
      && s2.inFlight == []
      && s2.vm.recipes == page
      && s3 == s2
  {
    var s0 := Start(saved);
    assert s0.paging == Paging(false, Some(false)) && s0.inFlight == [] && s0.vm.recipes == [];
    assert s0.vm.queryState.offset == 0 && s0.vm.ui.allChecked;
    SearchFromIdleGridFetchedOnce(s0, text, page, total, firstVisible, visibleCount);
  }

  /** The same from any idle session showing the grid, with nothing loaded
      or in flight and the effect last run for a false `loadMore`. */
  lemma SearchFromIdleGridFetchedOnce(s0: Session, text: string, page: seq<Recipe>, total: int,
                                      firstVisible: nat, visibleCount: nat)
    requires s0.paging == Paging(false, Some(false)) && s0.inFlight == [] && s0.vm.recipes == []
    requires s0.vm.queryState.offset == 0 && s0.vm.ui.allChecked
    requires !Blank(text)
    requires !LoadMore(firstVisible, visibleCount, |page|, total)
    ensures var s1 := Handle(s0, KeyboardSearched(text));
      var s2 := Handle(s1, FetchArrived(0, Fetched(page, total)));
      var s3 := Handle(s2, LoadMoreObserved(firstVisible, visibleCount));
      && s1.inFlight == [FetchRequest(Trim(text), 0, PAGE_SIZE)]
      && s2.inFlight == []
      && s2.vm.recipes == page
      && s3 == s2
  {
    NewSearchKeepsOffsetAndResults(s0, text);
    var s1 := Handle(s0, KeyboardSearched(text));
    assert s1.inFlight == [FetchRequest(Trim(text), 0, PAGE_SIZE)];
    NewestSearchArrives(s1, page, total);
    var s2 := Handle(s1, FetchArrived(0, Fetched(page, total)));
    assert s2.vm.recipes == page by {
      assert [] + page == page;
    }
    assert s2.paging == Paging(false, Some(false)) && s2.vm.queryState.totalResults == total;
    SteadyWindowIssuesNothing(s2, firstVisible, visibleCount);
  }

  /** The arrival of the newest search in flight appends its page, stamps
      the query state from it, and leaves the paging state and the chips
      alone. */
  lemma NewestSearchArrives(s: Session, page: seq<Recipe>, total: int)
    requires |s.inFlight| >= 1
    ensures var req := s.inFlight[|s.inFlight| - 1];
      var r := Handle(s, FetchArrived(|s.inFlight| - 1, Fetched(page, total)));
      && r.inFlight == s.inFlight[..|s.inFlight| - 1]
      && r.vm.recipes == s.vm.recipes + page
      && r.vm.queryState == QueryState(req.query, req.offset, req.number, total)
      && r.paging == s.paging
      && r.vm.ui.allChecked == s.vm.ui.allChecked
  {
    assert s.inFlight[|s.inFlight|..] == [];
  }

  /** An observation whose `loadMore` value is the one the effect last ran
      for changes nothing: `LaunchedEffect` restarts only on a new key. */
  lemma SteadyWindowIssuesNothing(s: Session, firstVisible: nat, visibleCount: nat)
    requires s.paging.key == Some(LoadMore(firstVisible, visibleCount, |s.vm.recipes|, s.vm.queryState.totalResults))
    ensures Handle(s, LoadMoreObserved(firstVisible, visibleCount)) == s
  {
    assert s.inFlight + [] == s.inFlight;
  }

  /** A swipe on bookmark row `index` takes exactly one copy of that recipe
      out of the bookmarks and changes nothing else. */
  lemma SwipeDeletesOneBookmark(s: Session, index: nat)
    requires !s.vm.ui.allChecked && index < |s.vm.bookmarks|
    ensures var r := Handle(s, BookmarkSwiped(index));
      && |r.vm.bookmarks| == |s.vm.bookmarks| - 1
      && multiset(r.vm.bookmarks) == multiset(s.vm.bookmarks) - multiset{s.vm.bookmarks[index]}
      && r.vm.recipes == s.vm.recipes && r.vm.queryState == s.vm.queryState
      && r.vm.ui == s.vm.ui && r.paging == s.paging && r.inFlight == s.inFlight
  {
    var r := Handle(s, BookmarkSwiped(index));
    assert s.vm.bookmarks[index] in multiset(s.vm.bookmarks);
    assert |multiset(r.vm.bookmarks)| == |multiset(s.vm.bookmarks)| - 1;
  }

  /** The history stays free of duplicates through every event: the only
      history writes are `addPreviousSearch` calls, which never add a term
      twice. */
  lemma HandleKeepsHistoryDistinct(s: Session, e: Event)
    requires NoDup(s.vm.ui.previousSearches)
    ensures NoDup(Handle(s, e).vm.ui.previousSearches)
  {
  }

  /** The same over any event sequence. */
  lemma {:induction false} ReplayKeepsHistoryDistinct(s: Session, events: seq<Event>)
    requires NoDup(s.vm.ui.previousSearches)
    ensures NoDup(Replay(s, events).vm.ui.previousSearches)
  {
    if |events| > 0 {
      ReplayKeepsHistoryDistinct(s, events[..|events| - 1]);
      HandleKeepsHistoryDistinct(Replay(s, events[..|events| - 1]), events[|events| - 1]);
    }
  }

  /** A fresh session's history is free of duplicates exactly when the
      history restored from the saved string is. */
  lemma StartHistoryDistinct(saved: Option<string>)
    ensures NoDup(Start(saved).vm.ui.previousSearches) <==> NoDup(History.Restore(saved))
  {
  }
}

=== FILE: recipe_view_model.dfy ===
/** The recipe view-model: the accumulated search results, the query state of
    the last successful fetch, the UI flags, the in-memory bookmark list and
    the saved search-history preference. Every handler is one pure step from
    one `ViewModel` value to the next. */
module RecipeViewModel {
  import opened Models
  import opened Seqs
  import History

  /** Results requested per page. */
  const PAGE_SIZE: int := 20

  /** The query a result page was fetched for. `number` is the page size the
      request asked for; `totalResults` is the catalog's count for the query. */
  datatype QueryState = QueryState(query: string, offset: int, number: int, totalResults: int)

  const DefaultQueryState: QueryState := QueryState("", 0, PAGE_SIZE, 0)

  datatype UIState = UIState(
    searching: bool,
    allChecked: bool,
    bookmarksChecked: bool,
    previousSearches: seq<string>
  )

  const DefaultUIState: UIState := UIState(false, true, false, [])

  /** A catalog search issued but not yet completed. */
  datatype FetchRequest = FetchRequest(query: string, offset: int, number: int)

  /** How a catalog search completed: a page of recipes with the catalog's
      total count, or any failure (`queryRecipies` catches every exception alike). */
  datatype FetchOutcome = Fetched(page: seq<Recipe>, totalResults: int) | FetchFailed

  /** The view-model's state containers, plus the saved history preference
      (`None` when nothing was ever saved). */
  datatype ViewModel = ViewModel(
    recipes: seq<Recipe>,
    queryState: QueryState,
    ui: UIState,
    bookmarks: seq<Recipe>,
    saved: Option<string>
  )

  /** Construction: every container at its default, except the history,
      which is restored from the saved preference. */
  function Create(saved: Option<string>): (vm: ViewModel)
    ensures vm.recipes == [] && vm.bookmarks == []
    ensures vm.queryState.query == "" && vm.queryState.offset == 0
    ensures vm.queryState.number == PAGE_SIZE && vm.queryState.totalResults == 0
    ensures !vm.ui.searching && vm.ui.allChecked && !vm.ui.bookmarksChecked
    ensures vm.ui.previousSearches == History.Restore(saved)
    ensures vm.saved == saved
  {
    ViewModel([], DefaultQueryState, DefaultUIState.(previousSearches := History.Restore(saved)), [], saved)
  }

  /** A history saved from a persistable list is the history the next
      process starts with. */
  lemma CreateRestoresSavedHistory(history: seq<string>)
    requires History.Persistable(history)
    ensures Create(Some(History.Persist(history))).ui.previousSearches == history
  {
    History.RestorePersist(history);
  }

  /** The completion of the search `req`: on success the page is appended to
      the accumulated results and the query state is stamped from the request
      and the response; on failure the results are emptied and the query
      state is kept. Nothing else changes either way. */
  function FetchCompleted(vm: ViewModel, req: FetchRequest, outcome: FetchOutcome): (r: ViewModel)
    ensures outcome.Fetched? ==>
      && |r.recipes| == |vm.recipes| + |outcome.page|
      && r.recipes[..|vm.recipes|] == vm.recipes
      && r.recipes[|vm.recipes|..] == outcome.page
      && r.queryState.query == req.query
      && r.queryState.offset == req.offset
      && r.queryState.number == req.number
      && r.queryState.totalResults == outcome.totalResults
    ensures outcome.FetchFailed? ==> r.recipes == [] && r.queryState == vm.queryState
    ensures r.ui == vm.ui && r.bookmarks == vm.bookmarks && r.saved == vm.saved
  {
    match outcome
    case Fetched(page, total) =>
      vm.(recipes := vm.recipes + page, queryState := QueryState(req.query, req.offset, req.number, total))
    case FetchFailed =>
      vm.(recipes := [])
  }

  /** One search completion, in arrival order. */
  datatype Completion = Completion(req: FetchRequest, outcome: FetchOutcome)

  /** The completions applied one after the other. */
  function CompleteAll(vm: ViewModel, cs: seq<Completion>): ViewModel {
    if |cs| == 0 then vm
    else
      var last := cs[|cs| - 1];
      FetchCompleted(CompleteAll(vm, cs[..|cs| - 1]), last.req, last.outcome)
  }

  predicate AllFetched(cs: seq<Completion>) {
    forall k :: 0 <= k < |cs| ==> cs[k].outcome.Fetched?
  }

  /** The pages of successful completions, concatenated in arrival order. */
  function Pages(cs: seq<Completion>): seq<Recipe>
    requires AllFetched(cs)
  {
    if |cs| == 0 then [] else Pages(cs[..|cs| - 1]) + cs[|cs| - 1].outcome.page
  }

  /** Total number of recipes the completions delivered. */
  function PageSizes(cs: seq<Completion>): nat
    requires AllFetched(cs)
  {
    if |cs| == 0 then 0 else PageSizes(cs[..|cs| - 1]) + |cs[|cs| - 1].outcome.page|
  }

  /** Successful fetches accumulate: the results are the old results followed
      by every page in arrival order, and their count is the sum of the page
      sizes. */
  lemma {:induction false} SuccessesAccumulate(vm: ViewModel, cs: seq<Completion>)
    requires AllFetched(cs)
    ensures CompleteAll(vm, cs).recipes == vm.recipes + Pages(cs)
    ensures |CompleteAll(vm, cs).recipes| == |vm.recipes| + PageSizes(cs)
  {
    if |cs| > 0 {
      var front := cs[..|cs| - 1];
      var last := cs[|cs| - 1];
      assert AllFetched(front);
      SuccessesAccumulate(vm, front);
      var before := CompleteAll(vm, front);
      assert last.outcome.Fetched?;
      assert CompleteAll(vm, cs).recipes == before.recipes + last.outcome.page;
      assert (vm.recipes + Pages(front)) + last.outcome.page == vm.recipes + (Pages(front) + last.outcome.page);
    }
  }

  /** After a failure only the pages that arrived later remain. */
  lemma {:induction false} FailureDiscardsEarlierPages(vm: ViewModel, cs: seq<Completion>, i: nat)
    requires i < |cs| && cs[i].outcome.FetchFailed?
    requires AllFetched(cs[i + 1..])
    ensures CompleteAll(vm, cs).recipes == Pages(cs[i + 1..])
  {
    if i == |cs| - 1 {
      assert cs[i + 1..] == [];
    } else {
      var front := cs[..|cs| - 1];
      assert front[i] == cs[i];
      assert front[i + 1..] == cs[i + 1..|cs| - 1];
      assert cs[i + 1..][..|cs[i + 1..]| - 1] == front[i + 1..];
      assert AllFetched(front[i + 1..]);
      FailureDiscardsEarlierPages(vm, front, i);
    }
  }

  /** `addPreviousSearch`: a new term is appended and the whole history is
      saved; a term already present changes nothing, not even the saved
      string. */
  function AddPreviousSearch(vm: ViewModel, term: string): (r: ViewModel)
    ensures r.ui.previousSearches == History.Add(vm.ui.previousSearches, term)
    ensures term in vm.ui.previousSearches ==> r == vm
    ensures term !in vm.ui.previousSearches ==> r.saved == Some(History.Persist(r.ui.previousSearches))
    ensures r.recipes == vm.recipes && r.queryState == vm.queryState && r.bookmarks == vm.bookmarks
    ensures r.ui.searching == vm.ui.searching
    ensures r.ui.allChecked == vm.ui.allChecked && r.ui.bookmarksChecked == vm.ui.bookmarksChecked
  {
    if term in vm.ui.previousSearches then vm
    else
      var updated := vm.ui.previousSearches + [term];
      vm.(ui := vm.ui.(previousSearches := updated), saved := Some(History.Persist(updated)))
  }

  /** Once a term has been added, the saved string restores the current
      history, as long as that history is persistable. */
  lemma AddedHistoryIsSaved(vm: ViewModel, term: string)
    requires term !in vm.ui.previousSearches
    requires History.Persistable(vm.ui.previousSearches + [term])
    ensures History.Restore(AddPreviousSearch(vm, term).saved) == AddPreviousSearch(vm, term).ui.previousSearches
  {
    History.RestorePersist(vm.ui.previousSearches + [term]);
  }

  /** Recording the same term twice leaves history and saved string as
      recording it once did. */
  lemma AddPreviousSearchTwice(vm: ViewModel, term: string)
    ensures AddPreviousSearch(AddPreviousSearch(vm, term), term) == AddPreviousSearch(vm, term)
  {
  }

  /** `updateQueryState`: replaces the query state. */
  function UpdateQueryState(vm: ViewModel, qs: QueryState): (r: ViewModel)
    ensures r.queryState == qs
    ensures r.recipes == vm.recipes && r.ui == vm.ui && r.bookmarks == vm.bookmarks && r.saved == vm.saved
  {
    vm.(queryState := qs)
  }

  /** `setSearching`: only the `searching` flag changes. */
  function SetSearching(ui: UIState, searching: bool): (r: UIState)
    ensures r.searching == searching
    ensures r.allChecked == ui.allChecked && r.bookmarksChecked == ui.bookmarksChecked
    ensures r.previousSearches == ui.previousSearches
  {
    ui.(searching := searching)
  }

  /** `setAllChecked`: only the `allChecked` flag changes. */
  function SetAllChecked(ui: UIState, allChecked: bool): (r: UIState)
    ensures r.allChecked == allChecked
    ensures r.searching == ui.searching && r.bookmarksChecked == ui.bookmarksChecked
    ensures r.previousSearches == ui.previousSearches
  {
    ui.(allChecked := allChecked)
  }

  /** `setBookmarksChecked`: only the `bookmarksChecked` flag changes. */
  function SetBookmarksChecked(ui: UIState, bookmarksChecked: bool): (r: UIState)
    ensures r.bookmarksChecked == bookmarksChecked
    ensures r.searching == ui.searching && r.allChecked == ui.allChecked
    ensures r.previousSearches == ui.previousSearches
  {
    ui.(bookmarksChecked := bookmarksChecked)
  }

  /** `deleteBookmark(recipeId)`: the in-memory list loses every recipe with
      that id and keeps every other recipe. */
  function DeleteBookmarkById(vm: ViewModel, id: int): (r: ViewModel)
    ensures forall k :: 0 <= k < |r.bookmarks| ==> r.bookmarks[k].id != id && r.bookmarks[k] in vm.bookmarks
    ensures forall k :: 0 <= k < |vm.bookmarks| && vm.bookmarks[k].id != id ==> vm.bookmarks[k] in r.bookmarks
    ensures r.recipes == vm.recipes && r.queryState == vm.queryState && r.ui == vm.ui && r.saved == vm.saved
  {
    vm.(bookmarks := Filter(vm.bookmarks, (b: Recipe) => b.id != id))
  }

  /** The recipes `deleteBookmark(recipeId)` keeps are the ones at the
      positions whose id differs, in their original order. */
  lemma DeleteBookmarkByIdKeepsOrder(vm: ViewModel, id: int)
    ensures var p := (b: Recipe) => b.id != id;
      DeleteBookmarkById(vm, id).bookmarks == Pick(vm.bookmarks, Positions(Flags(vm.bookmarks, p), |vm.bookmarks|, true))
  {
    SelectIsPick(vm.bookmarks, Flags(vm.bookmarks, (b: Recipe) => b.id != id), true);
  }

  /** Deleting by id a second time changes nothing. */
  lemma DeleteBookmarkByIdTwice(vm: ViewModel, id: int)
    ensures DeleteBookmarkById(DeleteBookmarkById(vm, id), id) == DeleteBookmarkById(vm, id)
  {
    FilterIdempotent(vm.bookmarks, (b: Recipe) => b.id != id);
  }

  /** `deleteBookmark(recipe)`: the in-memory list loses the first recipe
      structurally equal to `recipe` (same id, title and image), if any. */
  function DeleteBookmark(vm: ViewModel, recipe: Recipe): (r: ViewModel)
    ensures recipe !in vm.bookmarks ==> r.bookmarks == vm.bookmarks
    ensures recipe in vm.bookmarks ==>
      var i := IndexOf(vm.bookmarks, recipe);
      && recipe !in vm.bookmarks[..i]
      && r.bookmarks == vm.bookmarks[..i] + vm.bookmarks[i + 1..]
    ensures r.recipes == vm.recipes && r.queryState == vm.queryState && r.ui == vm.ui && r.saved == vm.saved
  {
    if recipe in vm.bookmarks then
      RemoveFirstAt(vm.bookmarks, recipe);
      vm.(bookmarks := RemoveFirst(vm.bookmarks, recipe))
    else
      RemoveFirstAbsent(vm.bookmarks, recipe);
      vm.(bookmarks := RemoveFirst(vm.bookmarks, recipe))
  }

  /** `deleteBookmark(recipe)` takes exactly one copy of the recipe out. */
  lemma DeleteBookmarkRemovesOneCopy(vm: ViewModel, recipe: Recipe)
    ensures multiset(DeleteBookmark(vm, recipe).bookmarks) == multiset(vm.bookmarks) - multiset{recipe}
  {
    RemoveFirstCount(vm.bookmarks, recipe);
  }

  /** The two deletions differ: two bookmarks sharing an id but not a title
      both go when deleting by id, while deleting by value takes only the
      equal one. */
  lemma DeleteByIdAndByValueDiffer()
    ensures var a := Recipe(5, "Soup", None);
      var b := Recipe(5, "Soup (old)", None);
      var vm := Create(None).(bookmarks := [a, b]);
      && DeleteBookmarkById(vm, 5).bookmarks == []
      && DeleteBookmark(vm, a).bookmarks == [b]
  {
    var a := Recipe(5, "Soup", None);
    var b := Recipe(5, "Soup (old)", None);
    var vm := Create(None).(bookmarks := [a, b]);
    assert a != b;
    assert IndexOf([a, b], a) == 0;
    var flags := Flags([a, b], (r: Recipe) => r.id != 5);
    assert flags == [false, false];
    assert [a, b][..1] == [a] && [a][..0] == [];
    assert Select([a, b], flags, true) == Select([a], flags, true) == Select([], flags, true);
  }
}

=== FILE: seqs.dfy ===
/** Sequence operations the Kotlin collections library supplies to the app:
    `filter`, `filterIndexed`, `contains` and `MutableList.remove`, together
    with the index-level descriptions they are proved against. */
module Seqs {

  /** No element occurs twice. */
  predicate NoDup<T(==)>(xs: seq<T>) {
    forall i, j :: 0 <= i < j < |xs| ==> xs[i] != xs[j]
  }

  /** The positions below `n`, in ascending order, whose flag equals `keep`. */
  function Positions(flags: seq<bool>, n: nat, keep: bool): (r: seq<nat>)
    requires n <= |flags|
    ensures forall k :: 0 <= k < |r| ==> r[k] < n && flags[r[k]] == keep
    ensures forall k, l :: 0 <= k < l < |r| ==> r[k] < r[l]
  {
    if n == 0 then []
    else
      var below := Positions(flags, n - 1, keep);
      if flags[n - 1] == keep then below + [n - 1] else below
  }

  /** Every position below `n` whose flag equals `keep` is listed. */
  lemma {:induction false} PositionsComplete(flags: seq<bool>, n: nat, keep: bool, i: nat)
    requires n <= |flags| && i < n && flags[i] == keep
    ensures i in Positions(flags, n, keep)
  {
    if i < n - 1 {
      PositionsComplete(flags, n - 1, keep, i);
    }
  }

  /** The k-th listed position is at least k: a selection never moves an
      element towards the back. */
  lemma {:induction false} PositionsAtLeastRank(flags: seq<bool>, n: nat, keep: bool, k: nat)
    requires n <= |flags| && k < |Positions(flags, n, keep)|
    ensures Positions(flags, n, keep)[k] >= k
  {
    if k > 0 {
      PositionsAtLeastRank(flags, n, keep, k - 1);
    }
  }

  /** The elements of `xs` at the given positions, in the order given. */
  function Pick<T>(xs: seq<T>, idx: seq<nat>): (r: seq<T>)
    requires forall k :: 0 <= k < |idx| ==> idx[k] < |xs|
    ensures |r| == |idx|
    ensures forall k :: 0 <= k < |idx| ==> r[k] == xs[idx[k]]
  {
    seq(|idx|, k requires 0 <= k < |idx| => xs[idx[k]])
  }

  /** Kotlin's `filterIndexed { i, _ -> flags[i] == keep }`: walks the list
      front to back and appends every element whose flag equals `keep`. Reading
      `flags[i]` fails in Kotlin when the flag list is shorter, hence the
      precondition. */
  function Select<T>(xs: seq<T>, flags: seq<bool>, keep: bool): (r: seq<T>)
    requires |xs| <= |flags|
    ensures |r| <= |xs|
  {
    if |xs| == 0 then []
    else
      var n := |xs| - 1;
      var front := Select(xs[..n], flags, keep);
      if flags[n] == keep then front + [xs[n]] else front
  }

  /** The flag list `p` induces on `xs`. */
  function Flags<T>(xs: seq<T>, p: T -> bool): (f: seq<bool>)
    ensures |f| == |xs|
    ensures forall i :: 0 <= i < |xs| ==> f[i] == p(xs[i])
  {
    seq(|xs|, i requires 0 <= i < |xs| => p(xs[i]))
  }

  /** Kotlin's `filter { p }`, which is `filterIndexed` on the flags `p` gives. */
  function Filter<T>(xs: seq<T>, p: T -> bool): (r: seq<T>)
    ensures |r| <= |xs|
    ensures forall k :: 0 <= k < |r| ==> r[k] in xs && p(r[k])
    ensures forall i :: 0 <= i < |xs| && p(xs[i]) ==> xs[i] in r
  {
    SelectMembers(xs, Flags(xs, p), true);
    Select(xs, Flags(xs, p), true)
  }

  /** `Select` keeps exactly the flagged positions, in ascending order: it is
      the order-preserving subsequence described by `Positions`. */
  lemma {:induction false} SelectIsPick<T>(xs: seq<T>, flags: seq<bool>, keep: bool)
    requires |xs| <= |flags|
    ensures Select(xs, flags, keep) == Pick(xs, Positions(flags, |xs|, keep))
  {
    if |xs| > 0 {
      var n := |xs| - 1;
      SelectIsPick(xs[..n], flags, keep);
      var below := Positions(flags, n, keep);
      assert Pick(xs[..n], below) == Pick(xs, below);
    }
  }

  /** Every element `Select` keeps sits at a position with the wanted flag,
      and every element at such a position is kept. */
  lemma SelectMembers<T>(xs: seq<T>, flags: seq<bool>, keep: bool)
    requires |xs| <= |flags|
    ensures forall k :: 0 <= k < |Select(xs, flags, keep)| ==>
      exists i :: 0 <= i < |xs| && flags[i] == keep && xs[i] == Select(xs, flags, keep)[k]
    ensures forall i :: 0 <= i < |xs| && flags[i] == keep ==> xs[i] in Select(xs, flags, keep)
  {
    var pos := Positions(flags, |xs|, keep);
    var r := Select(xs, flags, keep);
    SelectIsPick(xs, flags, keep);
    forall k | 0 <= k < |r|
      ensures exists i :: 0 <= i < |xs| && flags[i] == keep && xs[i] == r[k]
    {
      var i := pos[k];
      assert 0 <= i < |xs| && flags[i] == keep && xs[i] == r[k];
    }
    forall i | 0 <= i < |xs| && flags[i] == keep
      ensures xs[i] in r
    {
      PositionsComplete(flags, |xs|, keep, i);
      var k :| 0 <= k < |pos| && pos[k] == i;
      assert r[k] == xs[i];
    }
    assert forall k :: 0 <= k < |r| ==> exists i :: 0 <= i < |xs| && flags[i] == keep && xs[i] == r[k];
  }

  /** Appending one element to the list appends it to the selection exactly
      when its flag matches. */
  lemma SelectSnoc<T>(xs: seq<T>, x: T, flags: seq<bool>, keep: bool)
    requires |xs| < |flags|
    ensures Select(xs + [x], flags, keep) == Select(xs, flags, keep) + (if flags[|xs|] == keep then [x] else [])
  {
    assert (xs + [x])[..|xs|] == xs;
  }

  /** The positions kept and the positions dropped together account for
      every position exactly once. */
  lemma {:induction false} PositionsSplit(flags: seq<bool>, n: nat)
    requires n <= |flags|
    ensures |Positions(flags, n, true)| + |Positions(flags, n, false)| == n
  {
    if n > 0 {
      PositionsSplit(flags, n - 1);
    }
  }

  /** A selection whose every flag matches keeps the whole list. */
  lemma {:induction false} SelectAll<T>(xs: seq<T>, flags: seq<bool>, keep: bool)
    requires |xs| <= |flags|
    requires forall i :: 0 <= i < |xs| ==> flags[i] == keep
    ensures Select(xs, flags, keep) == xs
  {
    if |xs| > 0 {
      var n := |xs| - 1;
      SelectAll(xs[..n], flags, keep);
      SelectSnoc(xs[..n], xs[n], flags, keep);
      assert xs[..n] + [xs[n]] == xs;
    }
  }

  /** A filter keeps the list unchanged exactly when every element passes. */
  lemma FilterKeepsAll<T>(xs: seq<T>, p: T -> bool)
    ensures Filter(xs, p) == xs <==> forall i :: 0 <= i < |xs| ==> p(xs[i])
  {
    if forall i :: 0 <= i < |xs| ==> p(xs[i]) {
      SelectAll(xs, Flags(xs, p), true);
    }
  }

  /** Filtering twice with the same predicate is filtering once. */
  lemma FilterIdempotent<T>(xs: seq<T>, p: T -> bool)
    ensures Filter(Filter(xs, p), p) == Filter(xs, p)
  {
    FilterKeepsAll(Filter(xs, p), p);
  }

  /** The position of the first occurrence of `x`. */
  function IndexOf<T(==)>(xs: seq<T>, x: T): (i: nat)
    requires x in xs
    ensures i < |xs| && xs[i] == x && x !in xs[..i]
  {
    if xs[0] == x then 0
    else
      var j := IndexOf(xs[1..], x);
      assert xs[..j + 1] == [xs[0]] + xs[1..][..j];
      j + 1
  }

  /** Kotlin's `MutableList.remove(element)`: walks the list and drops the
      first element equal to `x`, if there is one. */
  function RemoveFirst<T(==)>(xs: seq<T>, x: T): (r: seq<T>)
    ensures |r| == if x in xs then |xs| - 1 else |xs|
  {
    if |xs| == 0 then xs
    else if xs[0] == x then xs[1..]
    else
      assert x in xs <==> x in xs[1..];
      [xs[0]] + RemoveFirst(xs[1..], x)
  }

  /** Removing an absent element changes nothing. */
  lemma {:induction false} RemoveFirstAbsent<T>(xs: seq<T>, x: T)
    requires x !in xs
    ensures RemoveFirst(xs, x) == xs
  {
    if |xs| > 0 {
      assert x !in xs[1..];
      RemoveFirstAbsent(xs[1..], x);
      assert xs == [xs[0]] + xs[1..];
    }
  }

  /** Cutting position `j + 1` out of `[h] + tail` is cutting position `j`
      out of `tail` and putting `h` back in front. */
  lemma CutBehindHead<T>(h: T, tail: seq<T>, j: nat)
    requires j < |tail|
    ensures ([h] + tail)[..j + 1] + ([h] + tail)[j + 2..] == [h] + (tail[..j] + tail[j + 1..])
  {
    var xs := [h] + tail;
    assert xs[..j + 1] == [h] + tail[..j];
    assert xs[j + 2..] == tail[j + 1..];
  }

  /** Removing a present element cuts out its first occurrence and keeps
      everything else in order. */
  lemma {:induction false} RemoveFirstAt<T>(xs: seq<T>, x: T)
    requires x in xs
    ensures RemoveFirst(xs, x) == xs[..IndexOf(xs, x)] + xs[IndexOf(xs, x) + 1..]
  {
    if xs[0] != x {
      var tail := xs[1..];
      assert xs == [xs[0]] + tail;
      var j := IndexOf(tail, x);
      assert IndexOf(xs, x) == j + 1;
      RemoveFirstAt(tail, x);
      CutBehindHead(xs[0], tail, j);
    }
  }

  /** Removing the first occurrence takes exactly one copy of `x` out of the
      multiset of elements, and nothing else. */
  lemma RemoveFirstCount<T>(xs: seq<T>, x: T)
    ensures multiset(RemoveFirst(xs, x)) == multiset(xs) - multiset{x}
  {
    if x in xs {
      var i := IndexOf(xs, x);
      var front, back := xs[..i], xs[i + 1..];
      assert multiset(xs) == multiset(front) + multiset{x} + multiset(back) by {
        assert xs == front + [x] + back;
      }
      assert multiset(RemoveFirst(xs, x)) == multiset(front) + multiset(back) by {
        RemoveFirstAt(xs, x);
      }
    } else {
      assert RemoveFirst(xs, x) == xs by {
        RemoveFirstAbsent(xs, x);
      }
      assert multiset(xs)[x] == 0;
    }
  }
}

=== FILE: text.dfy ===
/** The Kotlin string operations the app relies on: `trim()`,
    `contains(other)`, `split(delimiter)` and `joinToString(delimiter)`. */
module Text {

  /** Kotlin's `Char.isWhitespace()`: Java's `Character.isWhitespace` or
      `Character.isSpaceChar`, i.e. the ASCII controls TAB..CR and FS..US plus
      every Unicode space, line and paragraph separator. */
  predicate IsWhitespace(c: char) {
    || ('\t' <= c <= '\r')
    || ('\U{1C}' <= c <= '\U{1F}')
    || c == ' '
    || c == '\U{A0}'
    || c == '\U{1680}'
    || ('\U{2000}' <= c <= '\U{200A}')
    || c == '\U{2028}'
    || c == '\U{2029}'
    || c == '\U{202F}'
    || c == '\U{205F}'
    || c == '\U{3000}'
  }

  /** Every character is whitespace (vacuously so for ""). */
  predicate Blank(s: string) {
    forall i :: 0 <= i < |s| ==> IsWhitespace(s[i])
  }

  /** Number of whitespace characters at the start. */
  function Leading(s: string): (n: nat)
    ensures n <= |s|
    ensures Blank(s[..n])
    ensures n < |s| ==> !IsWhitespace(s[n])
  {
    if |s| == 0 || !IsWhitespace(s[0]) then 0
    else
      var m := Leading(s[1..]);
      assert Blank(s[..m + 1]) by {
        assert s[..m + 1] == [s[0]] + s[1..][..m];
      }
      m + 1
  }

  /** Number of whitespace characters at the end. */
  function Trailing(s: string): (n: nat)
    ensures n <= |s|
    ensures Blank(s[|s| - n..])
    ensures n < |s| ==> !IsWhitespace(s[|s| - n - 1])
  {
    if |s| == 0 || !IsWhitespace(s[|s| - 1]) then 0
    else
      var front := s[..|s| - 1];
      var m := Trailing(front);
      assert Blank(s[|s| - (m + 1)..]) by {
        assert s[|s| - (m + 1)..] == front[|front| - m..] + [s[|s| - 1]];
      }
      assert m + 1 < |s| ==> !IsWhitespace(s[|s| - m - 2]) by {
        if m + 1 < |s| { assert front[|front| - m - 1] == s[|s| - m - 2]; }
      }
      m + 1
  }

  /** The stretch `trim()` keeps runs from `Leading(s)` to `TrimEnd(s)`. */
  function TrimEnd(s: string): nat {
    |s| - Trailing(s[Leading(s)..])
  }

  /** Text is blank exactly when its leading whitespace is all of it. */
  lemma BlankIffAllLeading(s: string)
    ensures Blank(s) <==> Leading(s) == |s|
  {
    if Leading(s) == |s| {
      assert s[..Leading(s)] == s;
    }
  }

  /** The kept stretch is well placed, and empty exactly for blank text. */
  lemma TrimEmptyIffBlank(s: string)
    ensures Leading(s) <= TrimEnd(s) <= |s|
    ensures Blank(s) <==> Leading(s) == TrimEnd(s)
  {
    BlankIffAllLeading(s);
    if Leading(s) < |s| {
      TrailingStopsAtMark(s[Leading(s)..]);
    }
  }

  /** Only whitespace follows the kept stretch. */
  lemma TrimEndBlank(s: string)
    ensures Blank(s[TrimEnd(s)..])
  {
    var t := s[Leading(s)..];
    var m := Trailing(t);
    assert t[|t| - m..] == s[|s| - m..];
  }

  /** A non-empty kept stretch starts and ends with non-whitespace. */
  lemma TrimEndsMarked(s: string)
    ensures Leading(s) < TrimEnd(s) ==> !IsWhitespace(s[Leading(s)]) && !IsWhitespace(s[TrimEnd(s) - 1])
  {
    var a := Leading(s);
    if a < TrimEnd(s) {
      var t := s[a..];
      var m := Trailing(t);
      assert a < |s| && t[0] == s[a];
      TrailingStopsAtMark(t);
      assert TrimEnd(s) == |s| - m;
      assert t[|t| - m - 1] == s[TrimEnd(s) - 1];
    }
  }

  /** Text starting with a non-whitespace character has a non-whitespace
      character just before its trailing whitespace. */
  lemma TrailingStopsAtMark(t: string)
    requires |t| > 0 && !IsWhitespace(t[0])
    ensures Trailing(t) < |t| && !IsWhitespace(t[|t| - Trailing(t) - 1])
  {
  }

  /** Kotlin's `trim()`: the longest middle stretch that neither starts nor
      ends with whitespace. */
  function Trim(s: string): (r: string)
    ensures |r| <= |s|
    ensures r == "" <==> Blank(s)
    ensures |r| > 0 ==> !IsWhitespace(r[0]) && !IsWhitespace(r[|r| - 1])
    ensures exists a :: 0 <= a <= |s| - |r| && s[a..a + |r|] == r && Blank(s[..a]) && Blank(s[a + |r|..])
  {
    TrimEmptyIffBlank(s);
    TrimEndBlank(s);
    TrimEndsMarked(s);
    var a, b := Leading(s), TrimEnd(s);
    assert s[a..a + (b - a)] == s[a..b];
    s[a..b]
  }

  /** `t` is a prefix of `s`. */
  predicate StartsWith(s: string, t: string) {
    |t| <= |s| && s[..|t|] == t
  }

  /** Kotlin's case-sensitive `s.contains(t)`: `t` starts at some position of
      `s`, tried left to right. */
  predicate Contains(s: string, t: string)
    decreases |s|
  {
    StartsWith(s, t) || (|s| > 0 && Contains(s[1..], t))
  }

  /** `t` occurs in `s` starting at position `i`. */
  predicate OccursAt(s: string, t: string, i: int) {
    0 <= i <= |s| - |t| && s[i..i + |t|] == t
  }

  /** `Contains` is substring containment: `t` occurs as a contiguous slice. */
  lemma {:induction false} ContainsIffOccurs(s: string, t: string)
    ensures Contains(s, t) <==> exists i :: OccursAt(s, t, i)
  {
    if StartsWith(s, t) {
      assert OccursAt(s, t, 0);
    }
    if |s| > 0 {
      ContainsIffOccurs(s[1..], t);
      if exists i :: OccursAt(s, t, i) {
        var i :| OccursAt(s, t, i);
        if i > 0 {
          assert s[1..][i - 1..i - 1 + |t|] == t;
          assert OccursAt(s[1..], t, i - 1);
        }
      }
      if Contains(s[1..], t) {
        var i :| OccursAt(s[1..], t, i);
        assert s[i + 1..i + 1 + |t|] == t;
        assert OccursAt(s, t, i + 1);
      }
    }
  }

  /** Everything contains the empty string. */
  lemma ContainsEmpty(s: string)
    ensures Contains(s, "")
  {
    assert StartsWith(s, "");
  }

  /** Text lacking the first character of `t` cannot contain `t`. */
  lemma {:induction false} MissingFirstChar(s: string, t: string)
    requires |t| > 0 && t[0] !in s
    ensures !Contains(s, t)
  {
    if |s| > 0 {
      MissingFirstChar(s[1..], t);
    }
  }

  /** Kotlin's `joinToString(d)`; `JoinSnoc` says where the delimiters sit. */
  function Join(xs: seq<string>, d: char): (r: string)
    ensures |xs| == 0 ==> r == ""
    ensures |xs| >= 1 ==> |r| >= |xs[0]| && r[..|xs[0]|] == xs[0]
    ensures |r| >= |xs| - 1
  {
    if |xs| == 0 then ""
    else if |xs| == 1 then xs[0]
    else xs[0] + [d] + Join(xs[1..], d)
  }

  /** Every piece after the first follows the join of the pieces before it
      and one delimiter, the order in which `joinToString` appends them; so
      every gap between two pieces holds exactly one delimiter. */
  lemma {:induction false} JoinSnoc(xs: seq<string>, d: char)
    requires |xs| >= 2
    ensures Join(xs, d) == Join(xs[..|xs| - 1], d) + [d] + xs[|xs| - 1]
  {
    var n := |xs|;
    assert xs[..n - 1][0] == xs[0];
    if n == 2 {
      assert xs[1..] == [xs[1]];
      assert xs[..1] == [xs[0]];
    } else {
      JoinSnoc(xs[1..], d);
      assert xs[1..][..n - 2] == xs[..n - 1][1..];
      assert xs[1..][n - 2] == xs[n - 1];
    }
  }

  /** Kotlin's `split(d)` for a one-character delimiter: every piece between
      delimiters, empty pieces included, so the result is never empty. */
  function Split(s: string, d: char): (r: seq<string>)
    ensures |r| >= 1
    ensures forall k :: 0 <= k < |r| ==> d !in r[k]
  {
    if |s| == 0 then [""]
    else
      var rest := Split(s[1..], d);
      if s[0] == d then [""] + rest
      else [[s[0]] + rest[0]] + rest[1..]
  }

  /** Splitting text whose first piece `a` has no delimiter yields `a` glued
      to the first piece of the remainder. */
  lemma {:induction false} SplitPrefix(a: string, b: string, d: char)
    requires d !in a
    ensures Split(a + b, d) == [a + Split(b, d)[0]] + Split(b, d)[1..]
  {
    if |a| > 0 {
      SplitPrefix(a[1..], b, d);
      assert (a + b)[1..] == a[1..] + b;
      assert [a[0]] + (a[1..] + Split(b, d)[0]) == a + Split(b, d)[0];
    } else {
      var r := Split(b, d);
      assert a + b == b;
      assert a + r[0] == r[0];
      assert [r[0]] + r[1..] == r;
    }
  }

  /** Joining a non-empty list of delimiter-free pieces and splitting again
      gives the pieces back. */
  lemma {:induction false} SplitJoin(xs: seq<string>, d: char)
    requires |xs| >= 1
    requires forall k :: 0 <= k < |xs| ==> d !in xs[k]
    ensures Split(Join(xs, d), d) == xs
  {
    if |xs| == 1 {
      SplitPrefix(xs[0], "", d);
      assert xs[0] + "" == xs[0];
    } else {
      var tail := Join(xs[1..], d);
      SplitJoin(xs[1..], d);
      SplitPrefix(xs[0], [d] + tail, d);
      assert Join(xs, d) == xs[0] + ([d] + tail);
      assert ([d] + tail)[1..] == tail;
      assert Split([d] + tail, d) == [""] + xs[1..];
      assert xs[0] + "" == xs[0];
      assert xs == [xs[0]] + xs[1..];
    }
  }

  /** Splitting and joining again reproduces any text. */
  lemma {:induction false} JoinSplit(s: string, d: char)
    ensures Join(Split(s, d), d) == s
  {
    if |s| > 0 {
      var rest := Split(s[1..], d);
      JoinSplit(s[1..], d);
      if s[0] == d {
        assert s == [d] + s[1..];
      } else if |rest| == 1 {
        assert s == [s[0]] + s[1..];
      } else {
        var head := [s[0]] + rest[0];
        assert Split(s, d) == [head] + rest[1..];
        assert ([head] + rest[1..])[1..] == rest[1..];
        assert Join(rest, d) == rest[0] + [d] + Join(rest[1..], d);
        assert s == [s[0]] + s[1..];
      }
    }
  }
}
